=== FILE: README.md ===
# LiqourAPI core, modelled in Dafny

LiqourAPI is a small PHP client for the Oregon liquor-prices REST service.
Its logic that does not touch the network is a handful of string and
ordered-map transformations. This project models that logic and proves
properties of it:

- `Bag` (`bag.dfy`, module `Bags`): an ordered, string-keyed PHP array. It
  supports `set`, `setAll`, `unset`, `unsetAll`, `fill`, `get`, `has`, `all`,
  `count` and `toGenerator`. The model is a sequence of (key, value) entries
  with unique keys. Values are PHP scalars, null included.
- The response-metadata parser and header formatter of `Client`
  (`client.dfy`, module `HttpClient`). In PHP these steps write into fields
  of the client. Here each step is a pure function from one `MetaState`
  (protocol version, status code, headers, content type, charset) to the
  next.
- `Request`, `Response` and `RequestFactory` (`request.dfy`, `response.dfy`,
  `request_factory.dfy`). The value objects are immutable records whose
  setters are record updates. `http_build_query` is passed in as a function
  `encode`, and the only fact ever assumed about it is that it maps an empty
  array to "".
- `Api::request` (`api.dfy`, module `LiquorApi`): it merges the caller's
  parameters over the defaults and builds the endpoint URL. The model
  returns the (URL, parameters) pair that `request` hands to the client.
- The PSR-4 autoloader's path computation (`psr4_loader.dfy`, module
  `Psr4`).
- The PHP built-ins these rely on (`php.dfy` and `strings.dfy`):
  - truthiness and `(string)` casts;
  - integer to decimal string;
  - `explode`/`implode`;
  - `trim`/`rtrim`;
  - `strpos` on one character;
  - `preg_quote`;
  - a literal `preg_replace`;
  - `str_replace` of one character.

Behaviour of the code that the model keeps, although a reader might expect
otherwise:

- A line that is not a status line leaves the protocol and status fields
  as they were. They are not reset.
- `parseProtocolAndCode` matches the raw line. The escaped copy is stored
  in a misspelled variable and never read.
- The charset is read from any second token that contains '='. It is the
  piece between that token's first and second '='.
- Every trailing ';' of the content type is removed, not just one.
- `getUrlWithQuery` tests the truthiness of the encoded query, so a query
  that encodes to "0" is not appended.

## Model

| member | source | states |
|---|---|---|
| Bags.Lookup | src/Bag/Bag.php:53-62 | a key reads None exactly when it is not stored, otherwise the value of its unique entry |
| Bags.Set | src/Bag/Bag.php:17-21 | set adds k to the keys; an existing key is overwritten in place, a new key is appended, every other entry keeps its place and value |
| Bags.Unset | src/Bag/Bag.php:32-36 | unset removes k's entry (a no-op when k is absent), the other entries keep their relative order |
| Bags.Has | src/Bag/Bag.php:71-74 | has holds exactly when k is stored with a non-null value (isset) |
| Bags.Get | src/Bag/Bag.php:53-62 | get returns the stored non-null value when has holds, otherwise the default |
| Bags.SetAll | src/Bag/Bag.php:23-30 | setAll's keys are the union of the old keys and the argument's keys; existing keys keep their positions, and those the argument lacks keep their values; after them come exactly the argument's entries with new keys, in the argument's order |
| Bags.UnsetAll | src/Bag/Bag.php:38-45 | unsetAll removes exactly the KEYS of its argument, and the surviving entries keep their relative order (the bag filtered by the argument's keys) |
| Bags.UnsetIsDropKeys | src/Bag/Bag.php:32-36 | unset removes the one entry with the key and keeps the others in order |
| Bags.KeyOrderSet | src/Bag/Bag.php:17-21 | set leaves the order of existing keys alone and appends a new key at the end |
| Bags.Fill | src/Bag/Bag.php:47-51 | after fill, all() is the given array and every key reads from it |
| Bags.Count | src/Bag/Bag.php:81-84 | count is the number of distinct stored keys, null-valued ones included |
| Bags.ToGenerator | src/Bag/Bag.php:64-69 | one single-entry array per stored entry, in insertion order |
| Bags.FlattenToGenerator | src/Bag/Bag.php:64-69 | concatenating the generator's single-entry arrays gives back the bag |
| Bags.LookupSet | src/Bag/Bag.php:17-21 | set changes what k reads to v and nothing else |
| Bags.SetTwice | src/Bag/Bag.php:17-21 | setting one key twice equals setting it once to the second value |
| Bags.LookupUnset | src/Bag/Bag.php:32-36 | unset makes k read None and changes nothing else |
| Bags.SetThenGet | src/Bag/Bag.php:17-21 | after set(k, v) with v non-null, has(k) holds, get(k) is v, and count grows by one exactly when k was new |
| Bags.UnsetThenGet | src/Bag/Bag.php:32-36 | after unset(k), has(k) fails, get(k, d) is d, and a second unset changes nothing |
| Bags.NullReadsAsDefault | src/Bag/Bag.php:53-62 | a key stored with null is reported absent by has and reads as the default, though it is still stored |
| Bags.LookupSetAll | src/Bag/Bag.php:23-30 | after setAll every key of the argument reads the argument's value and every other key reads what it read before |
| Bags.LookupUnsetAll | src/Bag/Bag.php:38-45 | after unsetAll the argument's keys read None and every other key reads what it read before |
| Bags.LastWriteWins | src/Bag/Bag.php:17-36 | after any run of set/unset calls, a key reads what the last call touching it decided, or its old value if none did |
| Responses.NewResponse | src/Http/Response.php:66-83 | the constructor stores every argument; the getters return body, status, charset and content type unchanged, and all() of the headers is the given array |
| Responses.SetUri | src/Http/Response.php:85-89 | setUri sets the URI and changes no other field |
| Responses.SetContentBody | src/Http/Response.php:91-95 | setContentBody sets the body (read back by getContentBody) and changes no other field |
| Responses.SetStatusCode | src/Http/Response.php:97-101 | setStatusCode sets the code (read back by getStatusCode) and changes no other field |
| Responses.SetProtocolVersion | src/Http/Response.php:103-107 | setProtocolVersion sets the version and changes no other field |
| Responses.SetCharset | src/Http/Response.php:109-113 | setCharset sets the charset (read back by getCharset) and changes no other field |
| Responses.SetContentType | src/Http/Response.php:115-119 | setContentType sets the content type (read back by getContentType) and changes no other field |
| Responses.SetHeaders | src/Http/Response.php:121-125 | setHeaders makes all() of the headers equal the given array and changes no other field |
| Responses.IsJson | src/Http/Response.php:157-160 | isJson holds iff the content type is exactly "application/json" |
| Responses.IsJsonFollowsContentType | src/Http/Response.php:85-125 | no setter other than setContentType changes isJson |
| HttpClient.LeadingDigits | src/Http/Client.php:195 | the greedy `[\d]{1,3}`: the longest digit prefix of at most three characters |
| HttpClient.ParseProtocolAndCode | src/Http/Client.php:192-202 | on a status line, the protocol is its two digits and the status is the value of its 1-3 code digits, so it is below 1000; any other input changes nothing; the other fields are untouched |
| HttpClient.StatusLineRoundTrip | src/Http/Client.php:192-202 | parsing "HTTP/a.b NNN..." recovers version a.b and code NNN |
| HttpClient.EscapedStatusLineNeverMatches | src/Http/Client.php:194-195 | had the escaped copy been matched, no status line would match, so the raw line must be and is the one matched |
| HttpClient.SplitHeaderLine | src/Http/Client.php:206-212 | the name holds no colon, and name and value are both trimmed |
| HttpClient.SplitHeaderLineSpec | src/Http/Client.php:206-212 | the header name is the trimmed text before the first colon and holds no colon; the value is the trimmed rest, colons included; without a colon the name is "" and the value is the line minus its first character (its first byte in PHP; see Left out) |
| HttpClient.HeaderLineRoundTrip | src/Http/Client.php:206-212 | "Name: value" splits back into (Name, value) |
| HttpClient.HeaderNames | src/Http/Client.php:206-214 | every line's header name is among the names a run of lines produces |
| HttpClient.ParseHeaders | src/Http/Client.php:204-216 | the header keys afterwards are the old keys plus the names of all lines |
| HttpClient.ParseHeadersInOrder | src/Http/Client.php:204-216 | after the headers already present come the new names, each once, in the order of the first line carrying them |
| HttpClient.FirstNamesSnoc | src/Http/Client.php:206-215 | a further line adds its name at the end exactly when no earlier line and no existing header had it |
| HttpClient.ParseOneHeader | src/Http/Client.php:204-216 | one "Name: value" line is exactly set(Name, value) |
| HttpClient.ParseHeadersKeepsOrder | src/Http/Client.php:214 | headers already present keep their positions |
| HttpClient.ParseHeadersUntouched | src/Http/Client.php:214 | a name that no line carries keeps its value |
| HttpClient.ParseHeadersLastWins | src/Http/Client.php:214 | for a repeated header name the last line carrying it decides the value |
| HttpClient.CharsetOf | src/Http/Client.php:231-234 | the charset is null exactly when the token has no '='; otherwise it is the text between the token's first '=' and the next '=' or its end |
| HttpClient.ParseContentType | src/Http/Client.php:218-237 | a missing, null, empty or "0" Content-Type changes nothing; otherwise the content type is the text before the header's first space with only trailing ';' removed (none left), the charset is the CharsetOf of the text between the first and second spaces when there is a space and unchanged otherwise, and the other fields are kept |
| HttpClient.SplitContentType | src/Http/Client.php:223-235 | explode at ' ' seen through its first two pieces: the first token stripped of its trailing ';' characters, and the charset of the second token exactly when the value holds a space |
| HttpClient.ContentTypeRoundTrip | src/Http/Client.php:218-237 | "type; charset=cs" parses into content type "type" and charset "cs"; a bare "type" leaves the charset as it was |
| HttpClient.ParseResponseMeta | src/Http/Client.php:165-176 | no wrapper data changes nothing; an empty line list is a TypeError; otherwise the status comes from the first line only and the headers from the remaining lines only; the content type and charset are what the content-type step gives on the state after the status and header steps |
| HttpClient.ResponseMetaSteps | src/Http/Client.php:165-176 | any non-empty wrapper runs the status parse on the first line, the header parse on the rest, then the content-type parse |
| HttpClient.ContentTypeHeaderParsed | src/Http/Client.php:204-216 | a "Content-Type: h" line stores h under "Content-Type" |
| HttpClient.ResponseMetaRoundTrip | src/Http/Client.php:165-237 | a formatted status line plus a formatted Content-Type header parse into that code, version, header, media type and charset |
| HttpClient.FormatHeaders | src/Http/Client.php:149-163 | corrected formatter: one output entry per header, numeric names positional, other names stored under themselves |
| HttpClient.FormattedNamesDistinct | src/Http/Client.php:158 | no two named output entries share a name, so none overwrites another |
| HttpClient.FormatHeadersAsWritten | src/Http/Client.php:149-163 | as written: every header becomes a positional single-entry array |
| HttpClient.FormatHeadersAsWrittenDropsNames | src/Http/Client.php:152-158 | for a non-numeric header name the corrected formatter stores it by name, while as written nothing is stored by name |
| Requests.NewRequest | src/Http/Request.php:36-54 | a new request has the given URL, method "GET", an empty body, no query parameters and no headers |
| Requests.GetHeader | src/Http/Request.php:118-121 | getHeader is the stored non-null value, or null |
| Requests.SetUrl | src/Http/Request.php:56-65 | setUrl sets the URL (read back by getUrl) and changes no other field |
| Requests.SetContentBody | src/Http/Request.php:79-88 | setContentBody sets the body (read back by getContentBody) and changes no other field |
| Requests.SetMethod | src/Http/Request.php:90-99 | setMethod sets the method (read back by getMethod) and changes no other field |
| Requests.SetHeaders | src/Http/Request.php:101-105 | setHeaders replaces the headers wholesale: the bag holds exactly the given array in its order, every name reads from it, and no other field changes |
| Requests.SetHeader | src/Http/Request.php:107-111 | setHeader makes the named header read the value, overwriting it where it stands or appending it when new; every other header keeps its place and value, and no other field changes |
| Requests.SetQueryParams | src/Http/Request.php:123-132 | setQueryParams sets the parameters (read back by getQueryParams) and changes no other field |
| Requests.GetUrlWithQuery | src/Http/Request.php:67-77 | for any URL, a truthy encoded query gives the URL, '?', and the query; a falsy one gives the URL unchanged |
| Requests.UrlWithQuerySplitsBack | src/Http/Request.php:67-77 | the first '?' of the sent URL is the added one when the URL holds none, and the URL's own when it already holds a query, so a second '?' is appended |
| Requests.NoParamsNoQuery | src/Http/Request.php:67-77 | without parameters the URL is sent unchanged |
| Requests.SetHeaderAfterSetHeaders | src/Http/Request.php:101-111 | setHeaders then setHeader: the named header reads the new value, all others read the array's |
| Requests.SetHeaderTwice | src/Http/Request.php:107-111 | setting a header twice equals setting it once to the second value |
| RequestFactory.Get | src/Http/RequestFactory.php:9-21 | get returns a GET on the URI with no parameters, body or headers |
| RequestFactory.GetDropsParams | src/Http/RequestFactory.php:9-21 | as written the sent URL is the bare URI whatever the parameters are: the query string is computed and discarded |
| RequestFactory.GetWithQuery | src/Http/RequestFactory.php:9-21 | the corrected get is still a headerless, bodiless GET |
| RequestFactory.GetWithQuerySendsParams | src/Http/RequestFactory.php:11-18 | the corrected get sends URI "?" encoded parameters when there are any, and these split back at the first '?' |
| RequestFactory.PostPrelude | src/Http/RequestFactory.php:25-32 | post builds a POST on the URI, adding Content-Type: application/x-www-form-urlencoded only for an array body |
| RequestFactory.PostAsWritten | src/Http/RequestFactory.php:23-37 | every call ends in an undefined-method error |
| RequestFactory.PutAsWritten | src/Http/RequestFactory.php:39-44 | put fails with the error of the post it calls |
| RequestFactory.PostAsWrittenNeverReturns | src/Http/RequestFactory.php:34 | as written, post and put end every call in an undefined-method error |
| RequestFactory.Post | src/Http/RequestFactory.php:23-37 | corrected post: method POST; a string body is sent as is with no header; an array body is encoded and gets exactly the form Content-Type header |
| RequestFactory.Put | src/Http/RequestFactory.php:39-44 | put is post's request with the method PUT and nothing else changed |
| RequestFactory.Delete | src/Http/RequestFactory.php:46-51 | delete is a DELETE on the URI with no body, headers or parameters |
| RequestFactory.FactoryMethodsDifferOnlyInMethod | src/Http/RequestFactory.php:9-51 | delete and get differ only in the method, as do put and post |
| LiquorApi.Request | src/Liqour/Api.php:64-76 | the URL is the base endpoint, "/" and the endpoint; format and limit are always sent, defaulting to "json" and 20; caller values win and caller keys are kept; format and limit stay the first two keys, and after them come the caller's other keys in the caller's order |
| LiquorApi.GetPrices | src/Liqour/Api.php:24-29 | requests base "/price", with the caller parameters merged over the defaults |
| LiquorApi.GetPrice | src/Liqour/Api.php:31-36 | requests base "/price/" and the id in decimal, with the caller parameters merged over the defaults |
| LiquorApi.GetProducts | src/Liqour/Api.php:38-41 | requests base "/product", with the caller parameters merged over the defaults |
| LiquorApi.GetProduct | src/Liqour/Api.php:43-48 | requests base "/product/" and the id in decimal, with the caller parameters merged over the defaults |
| LiquorApi.GetStores | src/Liqour/Api.php:50-55 | requests base "/store", with the caller parameters merged over the defaults |
| LiquorApi.GetStore | src/Liqour/Api.php:57-62 | requests base "/store/" and the id in decimal, with the caller parameters merged over the defaults |
| LiquorApi.NoParamsSendsDefaults | src/Liqour/Api.php:66-71 | with no caller parameters exactly the defaults are sent |
| LiquorApi.CallerLimitWins | src/Liqour/Api.php:71 | a caller's limit replaces the default in place |
| LiquorApi.ResourcePathRoundTrip | src/Liqour/Api.php:26-59 | every getter's endpoint ("price", "price/<id>", ...) reads back as its resource and id |
| LiquorApi.ResourcePathInjective | src/Liqour/Api.php:26-59 | two getter endpoints are equal exactly when resource and id are |
| LiquorApi.GetterUrlsDistinct | src/Liqour/Api.php:33-73 | two getters request the same URL exactly when they name the same resource and id |
| LiquorApi.ItemUrlCarriesId | src/Liqour/Api.php:33-73 | getPrice/getProduct/getStore request base "/" name "/" id, and the id reads back from the URL |
| Psr4.NewLoader | src/Autoload/PSR4Loader.php:25-29 | a new loader keeps the base directory and has no namespaces |
| Psr4.ToSlashes | src/Autoload/PSR4Loader.php:48 | the result has no backslash, the same length, and differs only where a backslash was |
| Psr4.ToSlashesFixedPoints | src/Autoload/PSR4Loader.php:48 | a name is unchanged exactly when it has no backslash; converting twice is converting once |
| Psr4.RegisterNamespaceBaseDirectory | src/Autoload/PSR4Loader.php:46-50 | the slash-form namespace maps to the directory, every other namespace keeps its directory; a new namespace is appended after the registered ones, and a registered one is overwritten in its place |
| Psr4.RegisterOverwrites | src/Autoload/PSR4Loader.php:46-50 | re-registering a namespace (in either slash form) overwrites its directory |
| Psr4.ClassToDirectory | src/Autoload/PSR4Loader.php:52-55 | the class path has the class name's length, every backslash becomes '/', and every other character is kept |
| Psr4.NormalizeDirectory | src/Autoload/PSR4Loader.php:65-66 | the directory ends in exactly one '/', and what rtrim removed was only '/' |
| Psr4.NormalizeDirectoryIgnoresSlashes | src/Autoload/PSR4Loader.php:65-66 | any number of trailing slashes gives the same directory |
| Psr4.NormalizeDirectoryIdempotent | src/Autoload/PSR4Loader.php:65-66 | normalizing twice is normalizing once |
| Psr4.ApplyMappings | src/Autoload/PSR4Loader.php:64-70 | a path holding none of the registered (non-empty) namespaces is returned unchanged |
| Psr4.ApplyMappingsSnoc | src/Autoload/PSR4Loader.php:64-70 | mappings apply in registration order, each to the previous result |
| Psr4.OneMappingRewritesEveryOccurrence | src/Autoload/PSR4Loader.php:68-69 | a mapping replaces every literal occurrence of its namespace, not only a prefix, and leaves a path without it alone |
| Psr4.OneMappingReplaces | src/Autoload/PSR4Loader.php:64-70 | one registered mapping is one literal replace-all |
| Psr4.AddBaseDirectories | src/Autoload/PSR4Loader.php:72 | the result is the base directory, "/", and then the class path with every namespace mapping applied |
| Psr4.LoadPath | src/Autoload/PSR4Loader.php:35-39 | the path starts with base "/" and ends with ".php" |
| Psr4.LoadPathWithoutMappings | src/Autoload/PSR4Loader.php:37-39 | with no mapping the path is base "/" class-with-slashes ".php" |
| Psr4.LoadPathUnderNamespace | src/Autoload/PSR4Loader.php:35-75 | for a loader whose only namespace is this one, a class in it whose remaining name does not contain the namespace loads from the namespace's directory followed by the rest of the class name |
| Php.IntToStringRoundTrip | src/Liqour/Api.php:33 | the decimal id interpolated into an endpoint reads back as the id |
| Php.IntToStringInjective | src/Liqour/Api.php:45 | two ids give two different endpoint strings |
| Strings.JoinSplit | src/Http/Client.php:223 | explode followed by implode gives back the string |
| Strings.TrimIsTrimmed | src/Http/Client.php:211-212 | trim leaves no leading or trailing whitespace |
| Strings.TrimRightSpec | src/Http/Client.php:227 | rtrim keeps a prefix not ending in the stripped set and removes only characters of it |
| Strings.ReplaceAllIsJoinOfSplit | src/Autoload/PSR4Loader.php:69 | a literal replace-all cuts at every occurrence and glues with the replacement |
| Strings.ReplaceCharIsReplaceAll | src/Autoload/PSR4Loader.php:54 | replacing one character is the literal replace-all of that character |

## Left out

- Client::send, createStreamContext and createResponse: stream I/O, not modelled. `send` throws instead of returning an error response, and `createResponse` has an empty body.
- Client::parseContentBody: it calls `json_decode`, a foreign function.
- The Client configuration getters and setters: trivial. They use floats for the timeout and protocol version, and declare a `Request` return type while returning the client.
- Client's `$this->headers` is never declared or initialised, so in PHP `parseHeaders` and `parseContentType` would call methods on null. The model gives the parser a headers bag (`MetaState.headers`).
- HttpClient.FormatHeadersAsWritten: it assumes the Client may read the Request's private `headers` property. PHP forbids that, so as written the call fails even earlier.
- HttpClient.ParseProtocolAndCode: the protocol is kept as a (major, minor) digit pair. `floatval` is not modelled.
- Response::getUri: it reads the undeclared `requestedUri` and fails. No property is stated about it.
- Response::getHeaders, Bag::all (`Bags.All`) and the other plain getters: they are field reads, used in the contracts rather than given rows.
- Strings are sequences of characters, while PHP strings are bytes. The statements about lengths and positions (`substr`, `strpos`, `trim`) match PHP only for ASCII input. For example, a colon-less header line "é" keeps the byte 0xA9 as its value in PHP, while HttpClient.SplitHeaderLine yields "". A body that is not valid UTF-8 cannot be represented.
- Returning `$this` from setters: objects are immutable records here, so a setter returns the updated record instead.
- `http_build_query`: PHP's own. It is a parameter `encode`, and only `encode([]) == ""` is ever assumed.
- PHP's coercion of numeric-string array keys to integers: keys are strings throughout. For a namespace such as "123" the PHP key would become an integer, and `preg_quote` under strict types would then raise a TypeError. The model does not see this.
- `array_merge` renumbers integer keys: the caller's parameters are string-keyed here.
- Psr4.ApplyMappings: `preg_replace` reads `$n` and `\n` in the replacement directory as back-references. The model inserts the directory literally.
- PSR4Loader::load's `file_exists`/`require_once` and `spl_autoload_register`: filesystem and runtime hooks.
- The public Api getters beyond the URL and parameters they request: the Client has no `get` method, so `request`'s call fails. The model stops at (URL, parameters). `getProducts` declares a `Bag` return type for a `Response`.
- The resource layer (Price, Product, Store, ResourceFactory), demo.php and autoload.php: DTO mapping with dates and floats, and scripts.
- Psr4.LoadPathUnderNamespace: with several namespaces registered the replacements chain, since each mapping rewrites the output of the earlier ones. Registering "A" to "s" and then "s" to "t" turns "A\\F" into "t///F". Psr4.ApplyMappingsSnoc states the chaining; the directory-prefix law is stated for a single namespace only.
- HttpClient.ParseProtocolAndCode: PHP writes the parsed protocol into the Client's own `protocolVersion` field, the configured one (src/Http/Client.php:15, 199), so one response changes the version later requests would use. The model keeps the parsed version in the per-response `MetaState` and has no configured version.
- Responses.Version: a pair of naturals, not restricted to single digits. Only the status-line parser produces versions here, and it produces single digits.
- Floating-point values: `Value` has no float case, so a bag cannot hold a PHP float. No operation modelled here stores one.
- Non-string scalar post bodies: `Body` is a string or an array of fields.
- Array values in a `Bag`: `set`, `setAll` and `fill` accept any PHP value, arrays included, but `Value` holds only scalars and null. No operation modelled here stores an array in a bag.

## Findings

| source | as written | input that shows it | evidently intended | confidence | as-written member | corrected member |
|---|---|---|---|---|---|---|
| src/Http/Client.php:152-158 | iterates `toGenerator()`, whose keys are 0, 1, ..., so `is_numeric` always holds and every header is appended as a one-entry array | headers ["Accept" => "text/html"] give [0 => ["Accept" => "text/html"]] | iterate the (name, value) pairs: numeric names positional, others stored by name | high, not executed | HttpClient.FormatHeadersAsWrittenDropsNames | HttpClient.FormatHeaders |
| src/Http/RequestFactory.php:34 | calls `$request->setContent`, which Request does not define | post("u", "x") ends in "call to undefined method"; put fails the same way | `setContentBody` | high, not executed | RequestFactory.PostAsWrittenNeverReturns | RequestFactory.Post |
| src/Http/RequestFactory.php:11-18 | builds `$queryString` and never uses it | get("u", ["a" => "1"]) sends "u" | the URL carries "?" and the encoded parameters | medium, not executed | RequestFactory.GetDropsParams | RequestFactory.GetWithQuerySendsParams |

=== FILE: api.dfy ===
/**
 * The liquor-price `Api`: every public getter names a resource path and
 * hands it, with the caller's query parameters merged over the defaults,
 * to one private `request`. The model stops at the call `request` makes
 * on the client: the URL and the parameters it passes.
 */
module LiquorApi {

  import opened Php
  import opened Strings
  import opened Bags

  const BaseEndpoint: string := "http://www.oregonliquorprices.com/api/v1"

  /** The defaults every call sends unless the caller overrides them. */
  const Defaults: Bag := [("format", Str("json")), ("limit", Int(20))]

  /** What `request` passes to the client: a URL and query parameters. */
  datatype ApiCall = ApiCall(url: string, params: Bag)

  /** The three resources the service serves. */
  datatype Resource = PriceResource | ProductResource | StoreResource

  function ResourceName(res: Resource): string {
    match res
    case PriceResource => "price"
    case ProductResource => "product"
    case StoreResource => "store"
  }

  /** The endpoint a getter asks for: the resource name for the listing
      getters, the name, "/" and the decimal id for the single-item ones. */
  function ResourcePath(res: Resource, id: Option<int>): string {
    match id
    case None => ResourceName(res)
    case Some(i) => ResourceName(res) + "/" + IntToString(i)
  }

  /** The resource a name denotes, if any. */
  function ResourceOfName(name: string): Option<Resource> {
    if name == "price" then Some(PriceResource)
    else if name == "product" then Some(ProductResource)
    else if name == "store" then Some(StoreResource)
    else None
  }

  /** Reads a resource path back into the resource and the id: the name
      before the first "/", and the decimal id after it if there is one. */
  function ParseResourcePath(path: string): Option<(Resource, Option<int>)> {
    match IndexOf(path, '/')
    case None =>
      (match ResourceOfName(path)
       case None => None
       case Some(res) => Some((res, None)))
    case Some(i) =>
      (match (ResourceOfName(path[..i]), ParseInt(path[i + 1..]))
       case (Some(res), Some(id)) => Some((res, Some(id)))
       case _ => None)
  }

  lemma ResourceNameRoundTrip(res: Resource)
    ensures ResourceOfName(ResourceName(res)) == Some(res)
    ensures '/' !in ResourceName(res)
  {
  }

  lemma ResourcePathRoundTrip(res: Resource, id: Option<int>)
    ensures ParseResourcePath(ResourcePath(res, id)) == Some((res, id))
  {
    var name := ResourceName(res);
    ResourceNameRoundTrip(res);
    if id.Some? {
      var digits := IntToString(id.value);
      IntToStringRoundTrip(id.value);
      var path := name + "/" + digits;
      assert path[|name|] == '/' && path[..|name|] == name;
      assert IndexOf(path, '/') == Some(|name|);
      assert path[|name| + 1..] == digits;
    } else {
      assert IndexOf(name, '/') == None;
    }
  }

  lemma ResourcePathInjective(r1: Resource, id1: Option<int>, r2: Resource, id2: Option<int>)
    ensures ResourcePath(r1, id1) == ResourcePath(r2, id2) <==> r1 == r2 && id1 == id2
  {
    ResourcePathRoundTrip(r1, id1);
    ResourcePathRoundTrip(r2, id2);
  }

  /** The URL of an endpoint: the base, "/" and the endpoint. */
  function EndpointUrl(endpoint: string): string {
    BaseEndpoint + "/" + endpoint
  }

  /** `request`: the endpoint joined to the base with "/", and
      `array_merge($defaults, $params)`: the caller's values win, the
      defaults fill in what the caller left out, "format" and "limit"
      stay the first two keys, and the caller's other keys follow in the
      caller's order. */
  function Request(endpoint: string, params: Bag): (c: ApiCall)
    ensures c.url == EndpointUrl(endpoint)
    ensures Keys(c.params) == Keys(params) + {"format", "limit"}
    ensures forall k :: k in Keys(params) ==> Lookup(c.params, k) == Lookup(params, k)
    ensures "format" !in Keys(params) ==> Lookup(c.params, "format") == Some(Str("json"))
    ensures "limit" !in Keys(params) ==> Lookup(c.params, "limit") == Some(Int(20))
    ensures |c.params| >= 2 && c.params[0].0 == "format" && c.params[1].0 == "limit"
    ensures c.params[2..] == DropKeys(params, {"format", "limit"})
  {
    assert Keys(Defaults) == {"format", "limit"} by {
      assert Defaults[0].0 == "format" && Defaults[1].0 == "limit";
    }
    LookupSetAllEverywhere(Defaults, params);
    LookupSet(Empty, "format", Str("json"), "format");
    assert Lookup(Defaults, "format") == Some(Str("json")) && Lookup(Defaults, "limit") == Some(Int(20)) by {
      assert Defaults[0] == ("format", Str("json")) && Defaults[1] == ("limit", Int(20));
    }
    ApiCall(EndpointUrl(endpoint), SetAll(Defaults, params))
  }

  /** The URL of a listing endpoint, for any base. */
  lemma ListUrl(base: string, res: Resource, slashName: string)
    requires slashName == "/" + ResourceName(res)
    ensures base + "/" + ResourcePath(res, None) == base + slashName
  {
  }

  /** The URL of an item endpoint, for any base. */
  lemma ItemUrl(base: string, res: Resource, slashNameSlash: string, id: int)
    requires slashNameSlash == "/" + ResourceName(res) + "/"
    ensures base + "/" + ResourcePath(res, Some(id)) == base + slashNameSlash + IntToString(id)
  {
  }

  /** The public getters: each asks `request` for its endpoint, written in
      the source as a literal resource name and, for a single item, "/"
      and the id interpolated in decimal. What they build from the response
      is not modelled. */
  function GetPrices(params: Bag): (c: ApiCall)
    ensures c.url == BaseEndpoint + "/price" && c.params == SetAll(Defaults, params)
  {
    ListUrl(BaseEndpoint, PriceResource, "/price");
    Request(ResourcePath(PriceResource, None), params)
  }

  function GetPrice(priceId: int, params: Bag): (c: ApiCall)
    ensures c.url == BaseEndpoint + "/price/" + IntToString(priceId) && c.params == SetAll(Defaults, params)
  {
    ItemUrl(BaseEndpoint, PriceResource, "/price/", priceId);
    Request(ResourcePath(PriceResource, Some(priceId)), params)
  }

  function GetProducts(params: Bag): (c: ApiCall)
    ensures c.url == BaseEndpoint + "/product" && c.params == SetAll(Defaults, params)
  {
    ListUrl(BaseEndpoint, ProductResource, "/product");
    Request(ResourcePath(ProductResource, None), params)
  }

  function GetProduct(productId: int, params: Bag): (c: ApiCall)
    ensures c.url == BaseEndpoint + "/product/" + IntToString(productId) && c.params == SetAll(Defaults, params)
  {
    ItemUrl(BaseEndpoint, ProductResource, "/product/", productId);
    Request(ResourcePath(ProductResource, Some(productId)), params)
  }

  function GetStores(params: Bag): (c: ApiCall)
    ensures c.url == BaseEndpoint + "/store" && c.params == SetAll(Defaults, params)
  {
    ListUrl(BaseEndpoint, StoreResource, "/store");
    Request(ResourcePath(StoreResource, None), params)
  }

  function GetStore(storeId: int, params: Bag): (c: ApiCall)
    ensures c.url == BaseEndpoint + "/store/" + IntToString(storeId) && c.params == SetAll(Defaults, params)
  {
    ItemUrl(BaseEndpoint, StoreResource, "/store/", storeId);
    Request(ResourcePath(StoreResource, Some(storeId)), params)
  }

  /** The URL a getter asks for names its resource and id: two getters
      ask for the same URL exactly when they ask for the same resource and
      the same id. */
  lemma GetterUrlsDistinct(r1: Resource, id1: Option<int>, r2: Resource, id2: Option<int>)
    ensures EndpointUrl(ResourcePath(r1, id1)) == EndpointUrl(ResourcePath(r2, id2))
            <==> r1 == r2 && id1 == id2
  {
    ResourcePathInjective(r1, id1, r2, id2);
    var b := BaseEndpoint + "/";
    assert EndpointUrl(ResourcePath(r1, id1))[|b|..] == ResourcePath(r1, id1);
    assert EndpointUrl(ResourcePath(r2, id2))[|b|..] == ResourcePath(r2, id2);
  }

  /** `getPrice`, `getProduct` and `getStore` put the decimal id after the
      resource name, and the id reads back from the URL. */
  lemma ItemUrlCarriesId(res: Resource, id: int)
    ensures var u := EndpointUrl(ResourcePath(res, Some(id)));
            var prefix := BaseEndpoint + "/" + ResourceName(res) + "/";
            |u| > |prefix| && u[..|prefix|] == prefix && ParseInt(u[|prefix|..]) == Some(id)
  {
    var u := EndpointUrl(ResourcePath(res, Some(id)));
    var prefix := BaseEndpoint + "/" + ResourceName(res) + "/";
    assert u == prefix + IntToString(id);
    assert u[|prefix|..] == IntToString(id);
    IntToStringRoundTrip(id);
  }

  /** With no parameters of their own, every getter sends exactly the
      defaults, in their order. */
  lemma NoParamsSendsDefaults(endpoint: string)
    ensures Request(endpoint, Empty).params == Defaults
  {
  }

  /** A caller's "limit" replaces the default in place: it stays second. */
  lemma CallerLimitWins(endpoint: string, limit: int)
    ensures Request(endpoint, [("limit", Int(limit))]).params == [("format", Str("json")), ("limit", Int(limit))]
  {
    var values: Bag := [("limit", Int(limit))];
    assert values[1..] == [];
    assert SetAll(Defaults, values) == Set(Defaults, "limit", Int(limit));
    assert Set(Defaults, "limit", Int(limit))[1] == ("limit", Int(limit));
  }
}

=== FILE: bag.dfy ===
/**
 * The `Bag` container: an insertion-ordered, string-keyed PHP array
 * wrapped in an object. A bag is modelled as the sequence of its
 * (key, value) entries in iteration order, keys pairwise distinct, which is
 * exactly what a PHP array with string keys is. Assigning to an existing
 * key overwrites it where it stands; assigning to a new key appends it.
 */
module Bags {

  import opened Php

  type Entry = (string, Value)

  predicate UniqueKeys(es: seq<Entry>) {
    forall i, j :: 0 <= i < j < |es| ==> es[i].0 != es[j].0
  }

  /** A PHP array with string keys, in iteration order. */
  type Bag = es: seq<Entry> | UniqueKeys(es) witness []

  const Empty: Bag := []

  function Keys(b: seq<Entry>): set<string> {
    set i | 0 <= i < |b| :: b[i].0
  }

  lemma KeysCons(b: seq<Entry>)
    requires b != []
    ensures Keys(b) == {b[0].0} + Keys(b[1..])
  {
    forall x | x in Keys(b) ensures x in {b[0].0} + Keys(b[1..]) {
      var i :| 0 <= i < |b| && b[i].0 == x;
      if i > 0 { assert b[1..][i - 1].0 == x; }
    }
  }

  /** Removing the entry at `i` keeps the keys distinct and removes exactly
      that entry's key. */
  lemma RemoveAt(b: Bag, i: nat)
    requires i < |b|
    ensures UniqueKeys(b[..i] + b[i + 1..])
    ensures Keys(b[..i] + b[i + 1..]) == Keys(b) - {b[i].0}
  {
    var r := b[..i] + b[i + 1..];
    assert forall j :: 0 <= j < |r| ==> r[j] == if j < i then b[j] else b[j + 1];
    assert UniqueKeys(r) by {
      forall j, l | 0 <= j < l < |r| ensures r[j].0 != r[l].0 {
        var bj := if j < i then j else j + 1;
        var bl := if l < i then l else l + 1;
        assert r[j] == b[bj] && r[l] == b[bl] && bj < bl;
      }
    }
    forall x | x in Keys(b) && x != b[i].0 ensures x in Keys(r) {
      var j :| 0 <= j < |b| && b[j].0 == x;
      if j < i { assert r[j].0 == x; } else { assert r[j - 1].0 == x; }
    }
    forall x | x in Keys(r) ensures x in Keys(b) && x != b[i].0 {
      var j :| 0 <= j < |r| && r[j].0 == x;
      if j < i { assert b[j].0 == x; } else { assert b[j + 1].0 == x; }
    }
  }

  /** Where `k` sits in the bag, if it is there. */
  function IndexOfKey(b: Bag, k: string): (r: Option<nat>)
    ensures r.None? <==> k !in Keys(b)
    ensures r.Some? ==> r.value < |b| && b[r.value].0 == k
    decreases |b|
  {
    if b == [] then None
    else if b[0].0 == k then Some(0)
    else match IndexOfKey(b[1..], k)
      case None =>
        KeysCons(b);
        None
      case Some(i) => Some(i + 1)
  }

  /** The value stored under `k`, whether or not it is null
      (`array_key_exists` followed by a read). */
  function Lookup(b: Bag, k: string): (r: Option<Value>)
    ensures r.None? <==> k !in Keys(b)
    ensures forall i :: 0 <= i < |b| && b[i].0 == k ==> r == Some(b[i].1)
  {
    match IndexOfKey(b, k)
    case None => None
    case Some(i) => Some(b[i].1)
  }

  /** `$bag->set($key, $value)`. */
  function Set(b: Bag, k: string, v: Value): (r: Bag)
    ensures Keys(r) == Keys(b) + {k}
    ensures |r| == if k in Keys(b) then |b| else |b| + 1
    ensures forall i :: 0 <= i < |b| && b[i].0 != k ==> r[i] == b[i]
    ensures forall i :: 0 <= i < |b| && b[i].0 == k ==> r[i] == (k, v)
    ensures k !in Keys(b) ==> r[|b|] == (k, v)
  {
    match IndexOfKey(b, k)
    case Some(i) =>
      var r := b[i := (k, v)];
      assert Keys(r) == Keys(b) by {
        forall x | x in Keys(b) ensures x in Keys(r) {
          var j :| 0 <= j < |b| && b[j].0 == x;
          assert r[j].0 == x;
        }
      }
      r
    case None =>
      var r := b + [(k, v)];
      assert Keys(r) == Keys(b) + {k} by {
        assert r[|b|].0 == k;
        forall x | x in Keys(b) ensures x in Keys(r) {
          var j :| 0 <= j < |b| && b[j].0 == x;
          assert r[j].0 == x;
        }
      }
      r
  }

  /** `$bag->unset($key)`: the entry for `k` leaves, the others keep their
      relative order. */
  function Unset(b: Bag, k: string): (r: Bag)
    ensures Keys(r) == Keys(b) - {k}
    ensures |r| == if k in Keys(b) then |b| - 1 else |b|
    ensures k !in Keys(b) ==> r == b
    ensures k in Keys(b) ==> exists i :: 0 <= i < |b| && b[i].0 == k && r == b[..i] + b[i + 1..]
  {
    match IndexOfKey(b, k)
    case None => b
    case Some(i) =>
      RemoveAt(b, i);
      b[..i] + b[i + 1..]
  }

  /** `$bag->has($key)`: PHP's `isset`, so a key bound to null is absent. */
  function Has(b: Bag, k: string): (r: bool)
    ensures r <==> exists i :: 0 <= i < |b| && b[i].0 == k && b[i].1 != Null
  {
    Lookup(b, k).Some? && Lookup(b, k).value != Null
  }

  /** `$bag->get($key, $default)`. */
  function Get(b: Bag, k: string, default: Value): (r: Value)
    ensures Has(b, k) ==> Lookup(b, k) == Some(r) && r != Null
    ensures !Has(b, k) ==> r == default
  {
    if Has(b, k) then Lookup(b, k).value else default
  }

  /** The entries of `es` whose key is not in `ks`, in their order. */
  function DropKeys(es: seq<Entry>, ks: set<string>): seq<Entry>
    decreases |es|
  {
    if es == [] then []
    else (if es[0].0 in ks then [] else [es[0]]) + DropKeys(es[1..], ks)
  }

  /** `$bag->setAll($values)`: `set` for each entry of `values`, in order.
      The old entries stay where they were, overwritten when `values` has
      their key; after them come the entries of `values` with new keys, in
      the order of `values`. */
  function SetAll(b: Bag, values: Bag): (r: Bag)
    ensures Keys(r) == Keys(b) + Keys(values)
    ensures |r| >= |b|
    ensures forall i :: 0 <= i < |b| ==> r[i].0 == b[i].0
    ensures forall i :: 0 <= i < |b| && b[i].0 !in Keys(values) ==> r[i] == b[i]
    ensures r[|b|..] == DropKeys(values, Keys(b))
    decreases |values|
  {
    if values == [] then b
    else
      KeysCons(values);
      var (k, v) := values[0];
      var rest: Bag := values[1..];
      var b1 := Set(b, k, v);
      var r := SetAll(b1, rest);
      KeyNotInTail(values);
      assert k !in Keys(b) ==> r[|b|] == values[0] by {
        if k !in Keys(b) {
          assert b1[|b|] == values[0];
        }
      }
      SetAllStepOrder(b, values, b1, r);
      r
  }

  /** `$bag->unsetAll($values)`: removes the KEYS of `values`; the values of
      `values` play no part, and the remaining entries keep their order. */
  function UnsetAll(b: Bag, values: Bag): (r: Bag)
    ensures Keys(r) == Keys(b) - Keys(values)
    ensures r == DropKeys(b, Keys(values))
    decreases |values|
  {
    if values == [] then
      assert Keys(values) == {};
      DropKeysNone(b, {});
      b
    else
      KeysCons(values);
      UnsetIsDropKeys(b, values[0].0);
      DropKeysTwice(b, {values[0].0}, Keys(values[1..]));
      UnsetAll(Unset(b, values[0].0), values[1..])
  }

  /** `$bag->fill($values)`: the old contents are dropped entirely. */
  function Fill(b: Bag, values: Bag): (r: Bag)
    ensures All(r) == values
    ensures forall k :: Lookup(r, k) == Lookup(values, k)
  {
    values
  }

  /** `$bag->all()`: the underlying array. */
  function All(b: Bag): seq<Entry> {
    b
  }

  /** `$bag->count()`: the number of distinct keys stored, null-valued
      ones included. */
  function Count(b: Bag): (n: nat)
    ensures n == |Keys(b)|
  {
    UniqueKeysCardinality(b);
    |b|
  }

  /** `$bag->toGenerator()`: one single-entry array per stored entry, in
      iteration order. */
  function ToGenerator(b: Bag): (r: seq<Bag>)
    ensures |r| == |b|
    ensures forall i :: 0 <= i < |b| ==> r[i] == [b[i]]
    decreases |b|
  {
    if b == [] then [] else [[b[0]]] + ToGenerator(b[1..])
  }

  function Flatten(parts: seq<seq<Entry>>): seq<Entry>
    decreases |parts|
  {
    if parts == [] then [] else parts[0] + Flatten(parts[1..])
  }

  // ---------------------------------------------------------------------
  // Lemmas
  // ---------------------------------------------------------------------

  lemma {:induction false} UniqueKeysCardinality(b: Bag)
    ensures |Keys(b)| == |b|
    decreases |b|
  {
    if b != [] {
      var t: Bag := b[1..];
      UniqueKeysCardinality(t);
      assert Keys(b) == {b[0].0} + Keys(t) by {
        forall x | x in Keys(b) ensures x in {b[0].0} + Keys(t) {
          var i :| 0 <= i < |b| && b[i].0 == x;
          if i > 0 { assert t[i - 1].0 == x; }
        }
        forall x | x in Keys(t) ensures x in Keys(b) {
          var i :| 0 <= i < |t| && t[i].0 == x;
          assert b[i + 1].0 == x;
        }
      }
      assert b[0].0 !in Keys(t);
    }
  }

  /** The first key of a bag does not recur in its tail. */
  lemma KeyNotInTail(b: Bag)
    requires b != []
    ensures b[0].0 !in Keys(b[1..])
  {
  }

  lemma {:induction false} DropKeysAppend(a: seq<Entry>, c: seq<Entry>, ks: set<string>)
    ensures DropKeys(a + c, ks) == DropKeys(a, ks) + DropKeys(c, ks)
    decreases |a|
  {
    if a == [] {
      assert a + c == c;
    } else {
      assert (a + c)[1..] == a[1..] + c;
      DropKeysAppend(a[1..], c, ks);
    }
  }

  /** Dropping keys that do not occur changes nothing. */
  lemma {:induction false} DropKeysNone(es: seq<Entry>, ks: set<string>)
    requires forall i :: 0 <= i < |es| ==> es[i].0 !in ks
    ensures DropKeys(es, ks) == es
    decreases |es|
  {
    if es != [] {
      DropKeysNone(es[1..], ks);
    }
  }

  /** A key that does not occur makes no difference to the dropped set. */
  lemma {:induction false} DropKeysIgnores(es: seq<Entry>, ks: set<string>, k: string)
    requires k !in Keys(es)
    ensures DropKeys(es, ks + {k}) == DropKeys(es, ks)
    decreases |es|
  {
    if es != [] {
      DropKeysIgnores(es[1..], ks, k);
    }
  }

  /** Dropping in two rounds is dropping the union. */
  lemma {:induction false} DropKeysTwice(es: seq<Entry>, a: set<string>, b: set<string>)
    ensures DropKeys(DropKeys(es, a), b) == DropKeys(es, a + b)
    decreases |es|
  {
    if es != [] {
      var head := if es[0].0 in a then [] else [es[0]];
      DropKeysAppend(head, DropKeys(es[1..], a), b);
      DropKeysTwice(es[1..], a, b);
      if es[0].0 !in a {
        assert DropKeys(head, b) == if es[0].0 in b then [] else [es[0]];
      }
    }
  }

  /** In entries with distinct keys, dropping the key at `i` removes just
      that entry. */
  lemma {:induction false} DropKeysAt(es: seq<Entry>, i: nat)
    requires UniqueKeys(es) && i < |es|
    ensures DropKeys(es, {es[i].0}) == es[..i] + es[i + 1..]
    decreases |es|
  {
    var k := es[i].0;
    if i == 0 {
      DropKeysNone(es[1..], {k});
    } else {
      DropKeysAt(es[1..], i - 1);
      assert es[1..][i - 1] == es[i];
      assert es[..i] + es[i + 1..] == [es[0]] + (es[1..][..i - 1] + es[1..][i..]);
    }
  }

  /** `unset` is dropping one key. */
  lemma UnsetIsDropKeys(b: Bag, k: string)
    ensures Unset(b, k) == DropKeys(b, {k})
  {
    match IndexOfKey(b, k)
    case None =>
      DropKeysNone(b, {k});
    case Some(i) =>
      DropKeysAt(b, i);
  }

  /** The order half of `setAll`'s step: when `b1` is `b` with the first
      entry of `values` set, and `r` carries after `b1` the rest of `values`
      with new keys, then `r` carries after `b` all of `values` with new
      keys. */
  lemma SetAllStepOrder(b: Bag, values: seq<Entry>, b1: Bag, r: seq<Entry>)
    requires values != [] && values[0].0 !in Keys(values[1..])
    requires Keys(b1) == Keys(b) + {values[0].0}
    requires |b1| == if values[0].0 in Keys(b) then |b| else |b| + 1
    requires |r| >= |b1|
    requires values[0].0 !in Keys(b) ==> r[|b|] == values[0]
    requires r[|b1|..] == DropKeys(values[1..], Keys(b1))
    ensures r[|b|..] == DropKeys(values, Keys(b))
  {
    var k := values[0].0;
    if k !in Keys(b) {
      DropKeysIgnores(values[1..], Keys(b), k);
      assert r[|b|..] == [r[|b|]] + r[|b| + 1..];
    } else {
      assert Keys(b1) == Keys(b);
    }
  }

  /** The keys of some entries, in their order. */
  function KeyOrder(es: seq<Entry>): seq<string> {
    seq(|es|, i requires 0 <= i < |es| => es[i].0)
  }

  /** Setting a key leaves the order of the keys from `from` on alone, and
      appends the key when it is new. */
  lemma KeyOrderSet(b: Bag, k: string, v: Value, from: nat)
    requires from <= |b|
    ensures KeyOrder(Set(b, k, v)[from..]) ==
      KeyOrder(b[from..]) + (if k in Keys(b) then [] else [k])
  {
  }

  /** Setting `k` changes what `k` reads and nothing else. */
  lemma LookupSet(b: Bag, k: string, v: Value, k': string)
    ensures Lookup(Set(b, k, v), k') == if k' == k then Some(v) else Lookup(b, k')
  {
    var r := Set(b, k, v);
    if k' == k {
      if k in Keys(b) {
        var i :| 0 <= i < |b| && b[i].0 == k;
        assert r[i] == (k, v);
      } else {
        assert r[|b|] == (k, v);
      }
    } else if k' in Keys(b) {
      var i :| 0 <= i < |b| && b[i].0 == k';
      assert r[i] == b[i];
    }
  }

  /** `LookupSet` for every other key at once. */
  lemma LookupSetOthers(b: Bag, k: string, v: Value)
    ensures Lookup(Set(b, k, v), k) == Some(v)
    ensures forall k' :: k' != k ==> Lookup(Set(b, k, v), k') == Lookup(b, k')
  {
    LookupSet(b, k, v, k);
    forall k' | k' != k ensures Lookup(Set(b, k, v), k') == Lookup(b, k') {
      LookupSet(b, k, v, k');
    }
  }

  /** Setting the same key twice is setting it once to the second value. */
  lemma SetTwice(b: Bag, k: string, v1: Value, v2: Value)
    ensures Set(Set(b, k, v1), k, v2) == Set(b, k, v2)
  {
    var r1 := Set(Set(b, k, v1), k, v2);
    var r2 := Set(b, k, v2);
    assert |r1| == |r2|;
    forall i | 0 <= i < |r1| ensures r1[i] == r2[i] {
      if i < |b| {
        if b[i].0 == k {
          assert Set(b, k, v1)[i].0 == k;
        } else {
          assert Set(b, k, v1)[i] == b[i];
        }
      } else {
        assert Set(b, k, v1)[i].0 == k;
      }
    }
  }

  /** Unsetting `k` removes `k` and changes nothing else. */
  lemma LookupUnset(b: Bag, k: string, k': string)
    ensures Lookup(Unset(b, k), k') == if k' == k then None else Lookup(b, k')
  {
    var r := Unset(b, k);
    if k' != k && k' in Keys(b) && k in Keys(b) {
      var i := IndexOfKey(b, k).value;
      assert r == b[..i] + b[i + 1..];
      var j := IndexOfKey(b, k').value;
      assert j != i;
      if j < i { assert r[j] == b[j]; } else { assert r[j - 1] == b[j]; }
    }
  }

  /** After `set(k, v)` with a non-null `v`, `has(k)` holds and `get(k)`
      returns `v`; the entry count grows by one exactly when `k` was new. */
  lemma SetThenGet(b: Bag, k: string, v: Value, default: Value)
    requires v != Null
    ensures Has(Set(b, k, v), k)
    ensures Get(Set(b, k, v), k, default) == v
    ensures Count(Set(b, k, v)) == if k in Keys(b) then Count(b) else Count(b) + 1
  {
    LookupSet(b, k, v, k);
  }

  /** After `unset(k)`, `has(k)` fails and `get(k, d)` returns `d`; a second
      `unset(k)` changes nothing. */
  lemma UnsetThenGet(b: Bag, k: string, default: Value)
    ensures !Has(Unset(b, k), k)
    ensures Get(Unset(b, k), k, default) == default
    ensures Unset(Unset(b, k), k) == Unset(b, k)
  {
    LookupUnset(b, k, k);
  }

  /** A key bound to null is reported absent and reads as the default. */
  lemma NullReadsAsDefault(b: Bag, k: string, default: Value)
    requires Lookup(b, k) == Some(Null)
    ensures !Has(b, k)
    ensures Get(b, k, default) == default
    ensures k in Keys(b)
  {
  }

  /** `setAll`: every key of `values` reads its value from `values`; every
      other key reads what it read before. */
  lemma {:induction false} LookupSetAll(b: Bag, values: Bag, k: string)
    ensures Lookup(SetAll(b, values), k) == if k in Keys(values) then Lookup(values, k) else Lookup(b, k)
    decreases |values|
  {
    if values != [] {
      var t: Bag := values[1..];
      LookupSetAll(Set(b, values[0].0, values[0].1), t, k);
      LookupSet(b, values[0].0, values[0].1, k);
      if k in Keys(t) {
        var i :| 0 <= i < |t| && t[i].0 == k;
        assert values[i + 1] == t[i];
      }
    }
  }

  /** `LookupSetAll` for every key at once. */
  lemma LookupSetAllEverywhere(b: Bag, values: Bag)
    ensures forall k :: Lookup(SetAll(b, values), k) ==
                        (if k in Keys(values) then Lookup(values, k) else Lookup(b, k))
  {
    forall k ensures Lookup(SetAll(b, values), k) == if k in Keys(values) then Lookup(values, k) else Lookup(b, k) {
      LookupSetAll(b, values, k);
    }
  }

  /** `unsetAll`: the keys of `values` are gone, every other key reads what
      it read before. */
  lemma {:induction false} LookupUnsetAll(b: Bag, values: Bag, k: string)
    ensures Lookup(UnsetAll(b, values), k) == if k in Keys(values) then None else Lookup(b, k)
    decreases |values|
  {
    if values != [] {
      var t: Bag := values[1..];
      LookupUnsetAll(Unset(b, values[0].0), t, k);
      LookupUnset(b, values[0].0, k);
    }
  }

  /** Concatenating what the generator yields gives back the bag. */
  lemma {:induction false} FlattenToGenerator(b: Bag)
    ensures Flatten(ToGenerator(b)) == b
    decreases |b|
  {
    if b != [] {
      FlattenToGenerator(b[1..]);
      assert ToGenerator(b)[1..] == ToGenerator(b[1..]);
    }
  }

  // ---------------------------------------------------------------------
  // Last write wins
  // ---------------------------------------------------------------------

  /** One mutation of a bag. */
  datatype Op = SetOp(key: string, value: Value) | UnsetOp(key: string)

  function Step(b: Bag, op: Op): Bag {
    match op
    case SetOp(k, v) => Set(b, k, v)
    case UnsetOp(k) => Unset(b, k)
  }

  /** The bag after performing `ops` in order. */
  function Apply(b: Bag, ops: seq<Op>): Bag
    decreases |ops|
  {
    if ops == [] then b else Step(Apply(b, ops[..|ops| - 1]), ops[|ops| - 1])
  }

  /** The most recent operation in `ops` that touches `k`. */
  function LastOpOn(ops: seq<Op>, k: string): (r: Option<Op>)
    ensures r.Some? ==> r.value in ops && r.value.key == k
    decreases |ops|
  {
    if ops == [] then None
    else if ops[|ops| - 1].key == k then Some(ops[|ops| - 1])
    else LastOpOn(ops[..|ops| - 1], k)
  }

  /** What any key reads after a run of `set`/`unset` calls is decided by
      the last of them that touched it, and by nothing else. */
  lemma {:induction false} LastWriteWins(b: Bag, ops: seq<Op>, k: string)
    ensures Lookup(Apply(b, ops), k) ==
      match LastOpOn(ops, k)
      case None => Lookup(b, k)
      case Some(SetOp(_, v)) => Some(v)
      case Some(UnsetOp(_)) => None
    decreases |ops|
  {
    if ops != [] {
      var prefix := ops[..|ops| - 1];
      LastWriteWins(b, prefix, k);
      match ops[|ops| - 1]
      case SetOp(k', v) => LookupSet(Apply(b, prefix), k', v, k);
      case UnsetOp(k') => LookupUnset(Apply(b, prefix), k', k);
    }
  }
}

=== FILE: client.dfy ===
/**
 * The response-metadata parser and the header formatter of `Client`.
 *
 * In the class these steps write into fields of the client object; here
 * each step is a pure function from the parsed state so far to the next
 * one. The state holds the protocol version, status code, response headers,
 * content type and charset. A step leaves every field it does not parse as
 * it found it.
 */
module HttpClient {

  import opened Php
  import opened Strings
  import opened Bags
  import opened Responses

  /** What the parser has learnt about a response so far. `charset` is
      `None` where PHP would store null. */
  datatype MetaState = MetaState(
    protocolVersion: Version,
    statusCode: int,
    headers: Bag,
    contentType: string,
    charset: Option<string>)

  // ---------------------------------------------------------------------
  // Status line
  // ---------------------------------------------------------------------

  /** The input starts with what `^HTTP\/(\d\.\d)\ ([\d]{1,3})` needs:
      "HTTP/", a digit, ".", a digit, a space and at least one digit. */
  predicate IsStatusLine(line: string) {
    && |line| >= 10
    && line[..5] == "HTTP/"
    && IsDigit(line[5]) && line[6] == '.' && IsDigit(line[7])
    && line[8] == ' ' && IsDigit(line[9])
  }

  /** The longest run of at most `max` digits at the start of `s`: what the
      greedy `[\d]{1,3}` takes. */
  function LeadingDigits(s: string, max: nat): (d: string)
    ensures d <= s && |d| <= max && AllDigits(d)
    ensures |d| < max && |d| < |s| ==> !IsDigit(s[|d|])
    decreases max
  {
    if max == 0 || s == [] || !IsDigit(s[0]) then []
    else [s[0]] + LeadingDigits(s[1..], max - 1)
  }

  /** `parseProtocolAndCode`: on a status line, the protocol version is its
      two digits and the status code the number its leading (at most three)
      code digits denote; on anything else nothing changes. The match runs
      on the raw line: the escaped copy is stored in a differently spelled
      variable and never read. */
  function ParseProtocolAndCode(st: MetaState, line: string): (r: MetaState)
    ensures !IsStatusLine(line) ==> r == st
    ensures IsStatusLine(line) ==>
      && r.protocolVersion == Version(DigitValue(line[5]), DigitValue(line[7]))
      && r.statusCode == DigitsValue(LeadingDigits(line[9..], 3))
      && 0 <= r.statusCode < 1000
    ensures r.headers == st.headers && r.contentType == st.contentType && r.charset == st.charset
  {
    if IsStatusLine(line) then
      var code := LeadingDigits(line[9..], 3);
      DigitsValueBelow(code);
      st.(protocolVersion := Version(DigitValue(line[5]), DigitValue(line[7])),
          statusCode := DigitsValue(code))
    else st
  }

  /** The status line a server sends, "HTTP/<major>.<minor> <code>" followed
      by the rest of the line. */
  function FormatStatusLine(v: Version, code: nat, rest: string): string
    requires v.major < 10 && v.minor < 10
  {
    "HTTP/" + [DigitChar(v.major)] + "." + [DigitChar(v.minor)] + " " + NatToString(code) + rest
  }

  lemma {:induction false} LeadingDigitsOfDigits(d: string, rest: string, max: nat)
    requires AllDigits(d) && |d| <= max
    requires |d| == max || rest == [] || !IsDigit(rest[0])
    ensures LeadingDigits(d + rest, max) == d
    decreases |d|
  {
    if d == [] {
      assert d + rest == rest;
    } else {
      assert (d + rest)[1..] == d[1..] + rest;
      LeadingDigitsOfDigits(d[1..], rest, max - 1);
      assert [d[0]] + d[1..] == d;
    }
  }

  /** Where the parts of a formatted status line stand. */
  lemma StatusLineLayout(v: Version, code: nat, rest: string)
    requires v.major < 10 && v.minor < 10
    ensures var line := FormatStatusLine(v, code, rest);
      && |line| >= 10 && line[..5] == "HTTP/"
      && line[5] == DigitChar(v.major) && line[6] == '.' && line[7] == DigitChar(v.minor)
      && line[8] == ' ' && line[9..] == NatToString(code) + rest
  {
    var line := FormatStatusLine(v, code, rest);
    assert line == "HTTP/" + [DigitChar(v.major), '.', DigitChar(v.minor), ' '] + (NatToString(code) + rest);
  }

  /** Parsing a formatted status line recovers its version and code. A
      code below 100 needs a line that does not continue with a digit,
      since up to three digits are read. */
  lemma StatusLineRoundTrip(st: MetaState, v: Version, code: nat, rest: string)
    requires v.major < 10 && v.minor < 10 && code < 1000
    requires code >= 100 || rest == [] || !IsDigit(rest[0])
    ensures ParseProtocolAndCode(st, FormatStatusLine(v, code, rest)) ==
      st.(protocolVersion := v, statusCode := code)
  {
    var digits := NatToString(code);
    StatusLineLayout(v, code, rest);
    NatToStringLength(code);
    NatToStringValue(code);
    LeadingDigitsOfDigits(digits, rest, 3);
  }

  /** Quoting the line first, as the unused escaped copy does, would break
      the match: `preg_quote` with delimiter '/' puts a backslash before the
      slash of "HTTP/". */
  lemma EscapedStatusLineNeverMatches(line: string)
    requires IsStatusLine(line)
    ensures !IsStatusLine(PregQuote(line, '/'))
  {
    var head, t := line[..4], line[4..];
    assert line == head + t;
    assert forall i :: 0 <= i < 4 ==> head[i] == line[..5][i];
    PregQuoteConcat(head, t, '/');
    forall i | 0 <= i < 4
      ensures head[i] !in RegexSpecial && head[i] != '/' && head[i] != 0 as char
    {
      LetterNotSpecial(head[i]);
    }
    PregQuoteUnquoted(head, '/');
    assert t[0] == line[..5][4];
    PregQuoteEscapesDelimiter(t, '/');
    var q := PregQuote(line, '/');
    assert q == PregQuote(head, '/') + PregQuote(t, '/');
    assert q[4] == '\\';
  }

  // ---------------------------------------------------------------------
  // Header lines
  // ---------------------------------------------------------------------

  /** One raw header line split at its first colon into a trimmed name and
      a trimmed value. Without a colon `strpos` yields false, which reads as
      0: the name is empty and the value is the line minus its first
      character, trimmed. */
  function SplitHeaderLine(raw: string): (kv: (string, string))
    ensures ':' !in kv.0 && IsTrimmed(kv.0) && IsTrimmed(kv.1)
  {
    match IndexOf(raw, ':')
    case Some(i) =>
      TrimKeepsOut(raw[..i], ':');
      TrimIsTrimmed(raw[..i]);
      TrimIsTrimmed(raw[i + 1..]);
      (Trim(raw[..i]), Trim(raw[i + 1..]))
    case None =>
      TrimIsTrimmed(if raw == [] then "" else raw[1..]);
      ("", Trim(if raw == [] then "" else raw[1..]))
  }

  /** The name is what precedes the FIRST colon, the value everything
      after it, further colons included. A line without a colon gives an
      empty name. */
  lemma SplitHeaderLineSpec(raw: string)
    ensures var kv := SplitHeaderLine(raw);
      && (':' in raw ==> exists i :: 0 <= i < |raw| && raw[i] == ':' && ':' !in raw[..i]
                                   && kv == (Trim(raw[..i]), Trim(raw[i + 1..])))
      && (':' !in raw ==> kv == ("", if raw == [] then "" else Trim(raw[1..])))
  {
  }

  /** The first colon of "Name: value" is the one after the name. */
  lemma FirstColonAfterName(name: string, value: string)
    requires ':' !in name
    ensures var raw := name + ": " + value;
      && IndexOf(raw, ':') == Some(|name|)
      && raw[..|name|] == name
      && raw[|name| + 1..] == " " + value
  {
    var raw := name + ": " + value;
    assert raw[|name|] == ':';
    assert raw[..|name|] == name;
    assert raw[|name| + 1..] == " " + value;
  }

  /** A "Name: value" line splits back into its name and value. */
  lemma HeaderLineRoundTrip(name: string, value: string)
    requires ':' !in name && IsTrimmed(name) && IsTrimmed(value)
    ensures SplitHeaderLine(name + ": " + value) == (name, value)
  {
    FirstColonAfterName(name, value);
    assert Trim(name) == name by {
      TrimLeadingWhitespace("", name);
      assert "" + name == name;
    }
    assert Trim(" " + value) == value by {
      TrimLeadingWhitespace(" ", value);
    }
  }

  /** The header name a raw line produces. */
  function HeaderName(raw: string): string {
    SplitHeaderLine(raw).0
  }

  /** The header value a raw line produces. */
  function HeaderValue(raw: string): string {
    SplitHeaderLine(raw).1
  }

  /** The header names the lines of `lines` produce. */
  function HeaderNames(lines: seq<string>): (names: set<string>)
    ensures forall i :: 0 <= i < |lines| ==> HeaderName(lines[i]) in names
    decreases |lines|
  {
    if lines == [] then {}
    else
      var init := lines[..|lines| - 1];
      assert forall i :: 0 <= i < |init| ==> init[i] == lines[i];
      HeaderNames(init) + {HeaderName(lines[|lines| - 1])}
  }

  /** The header names of `lines` that are not in `seen`, each once, in the
      order of the first line carrying it. */
  function FirstNames(lines: seq<string>, seen: set<string>): (r: seq<string>)
    ensures forall i :: 0 <= i < |r| ==> r[i] !in seen
    ensures forall i, j :: 0 <= i < j < |r| ==> r[i] != r[j]
    decreases |lines|
  {
    if lines == [] then []
    else
      var n := HeaderName(lines[0]);
      if n in seen then FirstNames(lines[1..], seen)
      else [n] + FirstNames(lines[1..], seen + {n})
  }

  lemma {:induction false} HeaderNamesCons(lines: seq<string>)
    requires lines != []
    ensures HeaderNames(lines) == {HeaderName(lines[0])} + HeaderNames(lines[1..])
    decreases |lines|
  {
    if |lines| > 1 {
      var n := |lines| - 1;
      assert lines[..n][1..] == lines[1..][..n - 1];
      HeaderNamesCons(lines[..n]);
    }
  }

  /** Adding a line at the end adds its name to the first names exactly
      when no earlier line, nor `seen`, had it. */
  lemma {:induction false} FirstNamesSnoc(lines: seq<string>, line: string, seen: set<string>)
    ensures FirstNames(lines + [line], seen) == FirstNames(lines, seen) +
      (if HeaderName(line) in seen + HeaderNames(lines) then [] else [HeaderName(line)])
    decreases |lines|
  {
    if lines == [] {
      assert [] + [line] == [line];
    } else {
      var m := HeaderName(lines[0]);
      assert (lines + [line])[1..] == lines[1..] + [line];
      HeaderNamesCons(lines);
      if m in seen {
        FirstNamesSnoc(lines[1..], line, seen);
      } else {
        FirstNamesSnoc(lines[1..], line, seen + {m});
      }
    }
  }

  /** `FirstNamesSnoc` for the last line of `lines`. */
  lemma FirstNamesLast(lines: seq<string>, seen: set<string>)
    requires lines != []
    ensures var n := |lines| - 1;
      FirstNames(lines, seen) == FirstNames(lines[..n], seen) +
        (if HeaderName(lines[n]) in seen + HeaderNames(lines[..n]) then [] else [HeaderName(lines[n])])
  {
    var n := |lines| - 1;
    FirstNamesSnoc(lines[..n], lines[n], seen);
    assert lines[..n] + [lines[n]] == lines;
  }

  /** `parseHeaders`: each line, in order, is split and `set` into the
      headers bag, so a later line with the same name overwrites the value
      in place. */
  function ParseHeaders(headers: Bag, lines: seq<string>): (r: Bag)
    ensures Keys(r) == Keys(headers) + HeaderNames(lines)
    decreases |lines|
  {
    if lines == [] then headers
    else
      var last := lines[|lines| - 1];
      Set(ParseHeaders(headers, lines[..|lines| - 1]), HeaderName(last), Str(HeaderValue(last)))
  }

  /** One step of `ParseHeadersInOrder`: setting the header of the last
      line extends the first names of the lines before it to those of all
      the lines. */
  lemma ParseHeaderStepInOrder(headers: Bag, lines: seq<string>, before: Bag, r: Bag)
    requires lines != []
    requires |before| >= |headers| && Keys(before) == Keys(headers) + HeaderNames(lines[..|lines| - 1])
    requires KeyOrder(before[|headers|..]) == FirstNames(lines[..|lines| - 1], Keys(headers))
    requires r == Set(before, HeaderName(lines[|lines| - 1]), Str(HeaderValue(lines[|lines| - 1])))
    ensures |r| >= |headers| && KeyOrder(r[|headers|..]) == FirstNames(lines, Keys(headers))
  {
    var last := lines[|lines| - 1];
    KeyOrderSet(before, HeaderName(last), Str(HeaderValue(last)), |headers|);
    FirstNamesLast(lines, Keys(headers));
  }

  /** The headers bag keeps its entries in front; after them come the names
      no earlier entry had, each once, in the order of their first line. */
  lemma {:induction false} ParseHeadersInOrder(headers: Bag, lines: seq<string>)
    ensures var r := ParseHeaders(headers, lines);
      |r| >= |headers| && KeyOrder(r[|headers|..]) == FirstNames(lines, Keys(headers))
    decreases |lines|
  {
    if lines != [] {
      ParseHeadersInOrder(headers, lines[..|lines| - 1]);
      ParseHeaderStepInOrder(headers, lines, ParseHeaders(headers, lines[..|lines| - 1]), ParseHeaders(headers, lines));
    }
  }

  /** Parsing one formatted "Name: value" line sets that header. */
  lemma ParseOneHeader(headers: Bag, name: string, value: string)
    requires ':' !in name && IsTrimmed(name) && IsTrimmed(value)
    ensures ParseHeaders(headers, [name + ": " + value]) == Set(headers, name, Str(value))
  {
    var line := name + ": " + value;
    HeaderLineRoundTrip(name, value);
    assert [line][..0] == [];
  }

  /** Headers already in the bag keep their places; new names are added
      after them. */
  lemma {:induction false} ParseHeadersKeepsOrder(headers: Bag, lines: seq<string>)
    ensures var r := ParseHeaders(headers, lines);
      |r| >= |headers| && forall i :: 0 <= i < |headers| ==> r[i].0 == headers[i].0
    decreases |lines|
  {
    if lines != [] {
      ParseHeadersKeepsOrder(headers, lines[..|lines| - 1]);
    }
  }

  /** A header name no line carries keeps what the bag had. */
  lemma {:induction false} ParseHeadersUntouched(headers: Bag, lines: seq<string>, k: string)
    requires forall i :: 0 <= i < |lines| ==> HeaderName(lines[i]) != k
    ensures Lookup(ParseHeaders(headers, lines), k) == Lookup(headers, k)
    decreases |lines|
  {
    if lines != [] {
      var n := |lines| - 1;
      var prefix := lines[..n];
      assert forall i :: 0 <= i < |prefix| ==> prefix[i] == lines[i];
      ParseHeadersUntouched(headers, prefix, k);
      var before := ParseHeaders(headers, prefix);
      assert ParseHeaders(headers, lines) == Set(before, HeaderName(lines[n]), Str(HeaderValue(lines[n])));
      LookupSet(before, HeaderName(lines[n]), Str(HeaderValue(lines[n])), k);
    }
  }

  /** For a repeated header name the LAST line carrying it decides its
      value. */
  lemma {:induction false} ParseHeadersLastWins(headers: Bag, lines: seq<string>, k: string, i: nat)
    requires i < |lines| && HeaderName(lines[i]) == k
    requires forall j :: i < j < |lines| ==> HeaderName(lines[j]) != k
    ensures Lookup(ParseHeaders(headers, lines), k) == Some(Str(HeaderValue(lines[i])))
    decreases |lines|
  {
    var n := |lines| - 1;
    var prefix := lines[..n];
    LookupSet(ParseHeaders(headers, prefix), HeaderName(lines[n]), Str(HeaderValue(lines[n])), k);
    if i < n {
      assert prefix[i] == lines[i];
      assert forall j :: i < j < |prefix| ==> prefix[j] == lines[j];
      ParseHeadersLastWins(headers, prefix, k, i);
    }
  }

  // ---------------------------------------------------------------------
  // Content type
  // ---------------------------------------------------------------------

  /** The charset in the second space-separated token: the piece between
      its first and second '=' (or its end). Without an '=' the list
      assignment reads a missing element and stores null. */
  function CharsetOf(token: string): (r: Option<string>)
    ensures r.None? <==> '=' !in token
    ensures r.Some? ==> '=' !in r.value && r.value == UpTo(AfterFirst(token, '='), '=')
  {
    var pieces := Split(token, "=");
    SplitCharPresent(token, '=');
    SplitCharFirstPieces(token, '=');
    if |pieces| >= 2 then Some(pieces[1]) else None
  }

  /** The content-type value split as `parseContentType` splits it: the
      first space-separated token with every trailing ';' removed, and,
      when there is a second token, the charset it carries (`Some(cs)`,
      where `cs` may itself be PHP's null). Without a space there is no
      second token. */
  function SplitContentType(s: string): (r: (string, Option<Option<string>>))
    ensures var first := UpTo(s, ' ');
      && r.0 <= first && AllIn(first[|r.0|..], {';'})
      && (r.0 == [] || r.0[|r.0| - 1] != ';')
    ensures ' ' !in s ==> r.1 == None
    ensures ' ' in s ==> r.1 == Some(CharsetOf(UpTo(AfterFirst(s, ' '), ' ')))
  {
    var parts := Split(s, " ");
    SplitCharPresent(s, ' ');
    SplitCharFirstPieces(s, ' ');
    TrimRightSpec(parts[0], {';'});
    (TrimRight(parts[0], {';'}), if |parts| >= 2 then Some(CharsetOf(parts[1])) else None)
  }

  /** `parseContentType`: when the bag's "Content-Type" value is truthy, the
      content type becomes its first space-separated token with every
      trailing ';' removed, and, if there is a second token, the charset
      becomes that token's `CharsetOf`. A missing, null, empty or "0" header
      changes nothing. The lookup is case-sensitive. */
  function ParseContentType(st: MetaState): (r: MetaState)
    ensures r.protocolVersion == st.protocolVersion && r.statusCode == st.statusCode
    ensures r.headers == st.headers
    ensures !IsTruthy(Get(st.headers, "Content-Type", Null)) ==> r == st
    ensures IsTruthy(Get(st.headers, "Content-Type", Null)) ==>
      var h := ToPhpString(Get(st.headers, "Content-Type", Null));
      && r.contentType <= UpTo(h, ' ')
      && AllIn(UpTo(h, ' ')[|r.contentType|..], {';'})
      && (r.contentType == [] || r.contentType[|r.contentType| - 1] != ';')
      && (' ' !in h ==> r.charset == st.charset)
      && (' ' in h ==> r.charset == CharsetOf(UpTo(AfterFirst(h, ' '), ' ')))
  {
    var header := Get(st.headers, "Content-Type", Null);
    if !IsTruthy(header) then st
    else
      var (contentType, charset) := SplitContentType(ToPhpString(header));
      st.(contentType := contentType, charset := if charset.Some? then charset.value else st.charset)
  }

  /** The Content-Type header value a server sends: a media type and,
      optionally, "; charset=" and a charset name. */
  function FormatContentType(mediaType: string, charset: Option<string>): string {
    match charset
    case None => mediaType
    case Some(c) => mediaType + "; charset=" + c
  }

  lemma SplitBareContentType(mediaType: string)
    requires ' ' !in mediaType && ';' !in mediaType
    ensures SplitContentType(mediaType) == (mediaType, None)
  {
    SplitCharAbsent(mediaType, ' ');
  }

  lemma CharsetOfAssignment(c: string)
    requires '=' !in c
    ensures CharsetOf("charset=" + c) == Some(c)
  {
    assert "charset=" + c == "charset" + ['='] + c;
    SplitCharAt("charset", '=', c);
    SplitCharAbsent(c, '=');
  }

  /** Two space-free tokens around one space explode into just those two. */
  lemma SplitTwoTokens(first: string, second: string)
    requires ' ' !in first && ' ' !in second
    ensures Split(first + [' '] + second, " ") == [first, second]
  {
    SplitCharAt(first, ' ', second);
    SplitCharAbsent(second, ' ');
  }

  /** A media type followed by ';' loses exactly that ';' to `rtrim`. */
  lemma TrimMediaType(mediaType: string)
    requires ';' !in mediaType
    ensures TrimRight(mediaType + ";", {';'}) == mediaType
  {
    assert (mediaType + ";")[..|mediaType|] == mediaType;
  }

  lemma SplitContentTypeWithCharset(mediaType: string, c: string)
    requires ' ' !in mediaType && ';' !in mediaType
    requires ' ' !in c && '=' !in c
    ensures SplitContentType(mediaType + "; charset=" + c) == (mediaType, Some(Some(c)))
  {
    var first, second := mediaType + ";", "charset=" + c;
    assert mediaType + "; charset=" + c == first + [' '] + second;
    SplitTwoTokens(first, second);
    CharsetOfAssignment(c);
    TrimMediaType(mediaType);
  }

  /** Parsing a formatted Content-Type header recovers the media type and
      the charset; without a charset the previous charset stays. */
  lemma ContentTypeRoundTrip(st: MetaState, mediaType: string, charset: Option<string>)
    requires ' ' !in mediaType && ';' !in mediaType
    requires charset.None? ==> IsTruthyString(mediaType)
    requires charset.Some? ==> ' ' !in charset.value && '=' !in charset.value
    requires Lookup(st.headers, "Content-Type") == Some(Str(FormatContentType(mediaType, charset)))
    ensures ParseContentType(st).contentType == mediaType
    ensures ParseContentType(st).charset == if charset.Some? then charset else st.charset
  {
    match charset
    case None => SplitBareContentType(mediaType);
    case Some(c) => SplitContentTypeWithCharset(mediaType, c);
  }

  // ---------------------------------------------------------------------
  // The driver
  // ---------------------------------------------------------------------

  /** `parseResponseMeta`: without wrapper data nothing is parsed; otherwise
      the first line is the status line and only the remaining lines are
      headers, after which the content type is read from the headers. An
      empty line list makes `array_shift` return null, which PHP refuses as
      the string argument of `parseProtocolAndCode`. */
  function ParseResponseMeta(st: MetaState, wrapperData: Option<seq<string>>): (r: Result<MetaState>)
    ensures wrapperData.None? ==> r == Success(st)
    ensures wrapperData == Some([]) ==> r.Failure? && r.error.TypeError?
    ensures wrapperData.Some? && wrapperData.value != [] ==>
      && r.Success?
      && r.value.headers == ParseHeaders(st.headers, wrapperData.value[1..])
      && r.value.statusCode == ParseProtocolAndCode(st, wrapperData.value[0]).statusCode
      && r.value.protocolVersion == ParseProtocolAndCode(st, wrapperData.value[0]).protocolVersion
    ensures wrapperData.Some? && wrapperData.value != [] ==>
      var afterStatus := ParseProtocolAndCode(st, wrapperData.value[0]);
      var afterHeaders := afterStatus.(headers := ParseHeaders(st.headers, wrapperData.value[1..]));
      && r.Success?
      && r.value.contentType == ParseContentType(afterHeaders).contentType
      && r.value.charset == ParseContentType(afterHeaders).charset
  {
    match wrapperData
    case None => Success(st)
    case Some(lines) =>
      if lines == [] then
        Failure(TypeError("parseProtocolAndCode(): argument must be of type string, null given"))
      else
        var afterStatus := ParseProtocolAndCode(st, lines[0]);
        var afterHeaders := afterStatus.(headers := ParseHeaders(afterStatus.headers, lines[1..]));
        Success(ParseContentType(afterHeaders))
  }

  /** End to end: metadata made of a formatted status line and a
      formatted Content-Type header parses into that status code, protocol
      version, header, media type and charset. */
  lemma ResponseMetaRoundTrip(st: MetaState, v: Version, code: nat, rest: string,
                              mediaType: string, charset: Option<string>)
    requires v.major < 10 && v.minor < 10 && code < 1000
    requires code >= 100 || rest == [] || !IsDigit(rest[0])
    requires ' ' !in mediaType && ';' !in mediaType
    requires charset.None? ==> IsTruthyString(mediaType)
    requires charset.Some? ==> ' ' !in charset.value && '=' !in charset.value
    requires IsTrimmed(FormatContentType(mediaType, charset))
    ensures var r := ParseResponseMeta(st, Some([FormatStatusLine(v, code, rest),
                                                 "Content-Type: " + FormatContentType(mediaType, charset)]));
      && r.Success?
      && r.value.statusCode == code
      && r.value.protocolVersion == v
      && Lookup(r.value.headers, "Content-Type") == Some(Str(FormatContentType(mediaType, charset)))
      && r.value.contentType == mediaType
      && r.value.charset == (if charset.Some? then charset else st.charset)
  {
    var header := FormatContentType(mediaType, charset);
    var line := "Content-Type: " + header;
    var status := FormatStatusLine(v, code, rest);
    var st1 := ParseProtocolAndCode(st, status);
    var st2 := st1.(headers := ParseHeaders(st1.headers, [line]));
    ResponseMetaSteps(st, [status, line]);
    assert [status, line][1..] == [line];
    StatusLineRoundTrip(st, v, code, rest);
    ContentTypeHeaderParsed(st1.headers, header);
    ContentTypeRoundTrip(st2, mediaType, charset);
  }

  /** The driver on any non-empty line list: the status step on the first
      line, the header step on the rest, then the content-type step. */
  lemma ResponseMetaSteps(st: MetaState, lines: seq<string>)
    requires lines != []
    ensures var st1 := ParseProtocolAndCode(st, lines[0]);
      ParseResponseMeta(st, Some(lines)) ==
      Success(ParseContentType(st1.(headers := ParseHeaders(st.headers, lines[1..]))))
  {
    var st1 := ParseProtocolAndCode(st, lines[0]);
    assert st1.headers == st.headers;
  }

  lemma ContentTypeHeaderParsed(headers: Bag, header: string)
    requires IsTrimmed(header)
    ensures Lookup(ParseHeaders(headers, ["Content-Type: " + header]), "Content-Type") == Some(Str(header))
  {
    var name := "Content-Type";
    assert name + ": " + header == "Content-Type: " + header;
    assert ':' !in name && IsTrimmed(name) by {
      assert name[0] == 'C' && name[11] == 'e';
    }
    ParseOneHeader(headers, name, header);
    LookupSet(headers, name, Str(header), name);
  }

  // ---------------------------------------------------------------------
  // Outgoing headers
  // ---------------------------------------------------------------------

  /** An entry of the header array handed to the stream context: appended
      under the next integer index, or stored under a header name. */
  datatype Formatted<+T> = Positional(item: T) | Named(name: string, item: T)

  /** `getFormattedHeaders` as evidently intended: a fold over the request's
      (name, value) entries in which a numeric name is appended positionally
      and any other name is stored under itself. `isNumeric` stands for
      PHP's `is_numeric`. */
  function FormatHeaders(headers: Bag, isNumeric: string -> bool): (r: seq<Formatted<Value>>)
    ensures |r| == |headers|
    ensures forall i :: 0 <= i < |headers| && isNumeric(headers[i].0) ==> r[i] == Positional(headers[i].1)
    ensures forall i :: 0 <= i < |headers| && !isNumeric(headers[i].0) ==> r[i] == Named(headers[i].0, headers[i].1)
    decreases |headers|
  {
    if headers == [] then []
    else
      var first := if isNumeric(headers[0].0) then Positional(headers[0].1) else Named(headers[0].0, headers[0].1);
      [first] + FormatHeaders(headers[1..], isNumeric)
  }

  /** No two named entries share a name, so storing under a name never
      overwrites an earlier entry: one output entry per header. */
  lemma FormattedNamesDistinct(headers: Bag, isNumeric: string -> bool)
    ensures var r := FormatHeaders(headers, isNumeric);
      forall i, j :: 0 <= i < j < |r| && r[i].Named? && r[j].Named? ==> r[i].name != r[j].name
  {
  }

  /** `getFormattedHeaders` as written: it iterates `toGenerator()`, whose
      keys are the integers 0, 1, ... and whose values are single-entry
      arrays. `is_numeric` holds of every integer key, so every entry is a
      one-entry array appended positionally. */
  function FormatHeadersAsWritten(headers: Bag): (r: seq<Formatted<Bag>>)
    ensures |r| == |headers|
    ensures forall i :: 0 <= i < |headers| ==> r[i] == Positional([headers[i]])
  {
    var gen := ToGenerator(headers);
    seq(|gen|, i requires 0 <= i < |gen| => Positional(gen[i]))
  }

  /** As written, a header with a non-numeric name never reaches the output
      under its name; as intended, it does. */
  lemma FormatHeadersAsWrittenDropsNames(name: string, value: Value, isNumeric: string -> bool)
    requires !isNumeric(name)
    ensures FormatHeaders([(name, value)], isNumeric) == [Named(name, value)]
    ensures FormatHeadersAsWritten([(name, value)]) == [Positional([(name, value)])]
    ensures forall e :: e in FormatHeadersAsWritten([(name, value)]) ==> !e.Named?
  {
  }
}

=== FILE: php.dfy ===
/**
 * PHP runtime notions the library relies on: the scalar values an array
 * slot can hold, PHP's truthiness and string conversion, decimal rendering
 * of integers, and the two failure-or-value wrappers used to model errors
 * that PHP raises at run time.
 */
module Php {

  /** A value that may be absent (PHP `null` where a string was expected). */
  datatype Option<+T> = None | Some(value: T)

  /** Run-time errors PHP raises in the modelled code. */
  datatype Error =
    | TypeError(message: string)
    | UndefinedMethod(name: string)

  /** Either a value or the error PHP raised while computing it. */
  datatype Result<+T> = Success(value: T) | Failure(error: Error)

  /** The scalar PHP values stored in arrays and bags. */
  datatype Value = Null | Bool(b: bool) | Int(i: int) | Str(s: string)

  /** PHP's boolean conversion of a string: only "" and "0" are falsy. */
  predicate IsTruthyString(s: string) {
    s != "" && s != "0"
  }

  /** PHP's boolean conversion of a scalar value, as used by `if ($x)`. */
  predicate IsTruthy(v: Value) {
    match v
    case Null => false
    case Bool(b) => b
    case Int(i) => i != 0
    case Str(s) => IsTruthyString(s)
  }

  predicate IsDigit(c: char) {
    '0' <= c <= '9'
  }

  predicate AllDigits(s: string) {
    forall i :: 0 <= i < |s| ==> IsDigit(s[i])
  }

  function DigitValue(c: char): (d: nat)
    requires IsDigit(c)
    ensures d < 10
  {
    c as int - '0' as int
  }

  function DigitChar(d: nat): (c: char)
    requires d < 10
    ensures IsDigit(c) && DigitValue(c) == d
  {
    ('0' as int + d) as char
  }

  /** The number a run of decimal digits denotes (PHP's `intval` on digits). */
  function DigitsValue(s: string): nat
    requires AllDigits(s)
  {
    if s == [] then 0 else DigitsValue(s[..|s| - 1]) * 10 + DigitValue(s[|s| - 1])
  }

  /** Decimal rendering of a natural number, without leading zeros. */
  function NatToString(n: nat): (s: string)
    ensures |s| >= 1 && AllDigits(s)
    ensures |s| > 1 ==> s[0] != '0'
    decreases n
  {
    if n < 10 then [DigitChar(n)] else NatToString(n / 10) + [DigitChar(n % 10)]
  }

  /** PHP's conversion of an integer to a string (as in `"price/$id"`). */
  function IntToString(i: int): (s: string)
    ensures |s| >= 1
    ensures i >= 0 ==> AllDigits(s)
    ensures i < 0 ==> s[0] == '-' && |s| >= 2 && AllDigits(s[1..])
  {
    if i < 0 then "-" + NatToString(-i) else NatToString(i)
  }

  /** Reads back an optionally signed run of decimal digits. */
  function ParseInt(s: string): Option<int> {
    if |s| >= 2 && s[0] == '-' && AllDigits(s[1..]) then Some(-(DigitsValue(s[1..]) as int))
    else if |s| >= 1 && AllDigits(s) then Some(DigitsValue(s))
    else None
  }

  lemma {:induction false} NatToStringValue(n: nat)
    ensures DigitsValue(NatToString(n)) == n
    decreases n
  {
    if n >= 10 {
      NatToStringValue(n / 10);
      var s := NatToString(n);
      assert s[..|s| - 1] == NatToString(n / 10);
    }
  }

  /** A run of `n` digits denotes a number below 10^n. */
  lemma {:induction false} DigitsValueBelow(s: string)
    requires AllDigits(s)
    ensures |s| <= 3 ==> DigitsValue(s) < 1000
    ensures |s| <= 2 ==> DigitsValue(s) < 100
    ensures |s| <= 1 ==> DigitsValue(s) < 10
    decreases |s|
  {
    if s != [] {
      DigitsValueBelow(s[..|s| - 1]);
    }
  }

  /** Numbers below 1000 render to at most three digits, and numbers from
      100 on to at least three. */
  lemma NatToStringLength(n: nat)
    ensures n < 1000 ==> |NatToString(n)| <= 3
    ensures n >= 100 ==> |NatToString(n)| >= 3
  {
    if n >= 10 {
      if n / 10 >= 10 {
        assert |NatToString(n / 10)| == |NatToString(n / 100)| + 1;
      }
    }
  }

  lemma ParseNatString(n: nat)
    ensures ParseInt(NatToString(n)) == Some(n)
  {
    var s := NatToString(n);
    NatToStringValue(n);
    assert s[0] != '-' by { assert IsDigit(s[0]); }
  }

  lemma ParseNegatedNatString(n: nat)
    ensures ParseInt("-" + NatToString(n)) == Some(-(n as int))
  {
    var s := "-" + NatToString(n);
    NatToStringValue(n);
    assert s[1..] == NatToString(n);
  }

  /** Reading back the decimal rendering of an integer gives the integer. */
  lemma IntToStringRoundTrip(i: int)
    ensures ParseInt(IntToString(i)) == Some(i)
  {
    if i < 0 {
      ParseNegatedNatString(-i);
    } else {
      ParseNatString(i);
    }
  }

  /** Distinct integers render to distinct strings. */
  lemma IntToStringInjective(i: int, j: int)
    ensures IntToString(i) == IntToString(j) <==> i == j
  {
    IntToStringRoundTrip(i);
    IntToStringRoundTrip(j);
  }

  /** PHP's `(string)` cast of a scalar value. */
  function ToPhpString(v: Value): string {
    match v
    case Null => ""
    case Bool(b) => if b then "1" else ""
    case Int(i) => IntToString(i)
    case Str(s) => s
  }
}

=== FILE: psr4_loader.dfy ===
/**
 * The PSR-4 style autoloader: it turns a fully qualified class name into
 * the path of the file to load, rewriting registered namespace prefixes
 * into directories. The model computes that path; whether the file exists,
 * loading it and the registration with `spl_autoload_register` are the
 * runtime's and are not modelled.
 */
module Psr4 {

  import opened Php
  import opened Strings
  import opened Bags

  /** The base directory and the namespace map, keyed by the namespace
      written with forward slashes, in registration order. */
  datatype Loader = Loader(baseDirectory: string, namespaces: Bag)

  const Slash: set<char> := {'/'}

  /** `new PSR4Loader($baseDirectory)`: no namespace registered yet. */
  function NewLoader(baseDirectory: string): (l: Loader)
    ensures l.baseDirectory == baseDirectory && Count(l.namespaces) == 0
  {
    Loader(baseDirectory, Empty)
  }

  /** `str_replace("\\", "/", $s)`: every backslash becomes a slash. */
  function ToSlashes(s: string): (r: string)
    ensures |r| == |s| && '\\' !in r
    ensures forall i :: 0 <= i < |s| ==> r[i] == if s[i] == '\\' then '/' else s[i]
  {
    ReplaceChar(s, '\\', '/')
  }

  /** A name already written with slashes is left alone, and only such
      names are, so converting twice is converting once. */
  lemma ToSlashesFixedPoints(s: string)
    ensures ToSlashes(s) == s <==> '\\' !in s
    ensures ToSlashes(ToSlashes(s)) == ToSlashes(s)
  {
    if '\\' !in s {
      assert forall i :: 0 <= i < |s| ==> ToSlashes(s)[i] == s[i];
    }
    var t := ToSlashes(s);
    assert forall i :: 0 <= i < |t| ==> ToSlashes(t)[i] == t[i];
  }

  lemma ToSlashesConcat(a: string, b: string)
    ensures ToSlashes(a + b) == ToSlashes(a) + ToSlashes(b)
  {
    var l := ToSlashes(a + b);
    var r := ToSlashes(a) + ToSlashes(b);
    assert forall i :: 0 <= i < |l| ==> l[i] == r[i] by {
      forall i | 0 <= i < |l| ensures l[i] == r[i] {
        if i < |a| { assert (a + b)[i] == a[i]; } else { assert (a + b)[i] == b[i - |a|]; }
      }
    }
  }

  /** `registerNamespaceBaseDirectory`: the namespace, with slashes for
      backslashes, is mapped to the directory; an earlier mapping of the
      same namespace is overwritten in place; nothing else changes. */
  function RegisterNamespaceBaseDirectory(l: Loader, namespace: string, directory: string): (r: Loader)
    ensures r.baseDirectory == l.baseDirectory
    ensures Lookup(r.namespaces, ToSlashes(namespace)) == Some(Str(directory))
    ensures forall k :: k != ToSlashes(namespace) ==> Lookup(r.namespaces, k) == Lookup(l.namespaces, k)
    ensures Keys(r.namespaces) == Keys(l.namespaces) + {ToSlashes(namespace)}
    ensures ToSlashes(namespace) !in Keys(l.namespaces) ==>
      r.namespaces == l.namespaces + [(ToSlashes(namespace), Str(directory))]
    ensures ToSlashes(namespace) in Keys(l.namespaces) ==>
      |r.namespaces| == |l.namespaces| &&
      forall i :: 0 <= i < |l.namespaces| ==>
        r.namespaces[i] == if l.namespaces[i].0 == ToSlashes(namespace) then (ToSlashes(namespace), Str(directory)) else l.namespaces[i]
  {
    LookupSetOthers(l.namespaces, ToSlashes(namespace), Str(directory));
    l.(namespaces := Set(l.namespaces, ToSlashes(namespace), Str(directory)))
  }

  /** Registering two spellings of one namespace ("A\\B" and "A/B") keeps
      only the second directory, in the place of the first. */
  lemma RegisterOverwrites(l: Loader, ns1: string, d1: string, ns2: string, d2: string)
    requires ToSlashes(ns1) == ToSlashes(ns2)
    ensures RegisterNamespaceBaseDirectory(RegisterNamespaceBaseDirectory(l, ns1, d1), ns2, d2)
            == RegisterNamespaceBaseDirectory(l, ns2, d2)
  {
    SetTwice(l.namespaces, ToSlashes(ns1), Str(d1), Str(d2));
  }

  /** `classStringtoDirectory`. */
  function ClassToDirectory(className: string): (r: string)
    ensures '\\' !in r && |r| == |className|
    ensures forall i :: 0 <= i < |className| ==> r[i] == if className[i] == '\\' then '/' else className[i]
  {
    ToSlashes(className)
  }

  /** `rtrim($dir, '/') . '/'`: the directory with exactly one trailing
      slash, whatever number it had. */
  function NormalizeDirectory(dir: string): (d: string)
    ensures |d| >= 1 && d[|d| - 1] == '/'
    ensures |d| == 1 || d[|d| - 2] != '/'
    ensures d[..|d| - 1] <= dir && AllIn(dir[|d| - 1..], Slash)
  {
    TrimRightSpec(dir, Slash);
    TrimRight(dir, Slash) + "/"
  }

  /** Trailing slashes make no difference: "src", "src/" and "src//" map
      to the same directory. */
  lemma {:induction false} NormalizeDirectoryIgnoresSlashes(dir: string, slashes: string)
    requires AllIn(slashes, Slash)
    ensures NormalizeDirectory(dir + slashes) == NormalizeDirectory(dir)
    decreases |slashes|
  {
    if slashes == [] {
      assert dir + slashes == dir;
    } else {
      var shorter := slashes[..|slashes| - 1];
      assert (dir + slashes)[..|dir + slashes| - 1] == dir + shorter;
      assert (dir + slashes)[|dir + slashes| - 1] == slashes[|slashes| - 1];
      assert slashes[|slashes| - 1] in Slash;
      assert TrimRight(dir + slashes, Slash) == TrimRight(dir + shorter, Slash);
      assert AllIn(shorter, Slash) by {
        forall i | 0 <= i < |shorter| ensures shorter[i] in Slash {
          assert shorter[i] == slashes[i];
        }
      }
      NormalizeDirectoryIgnoresSlashes(dir, shorter);
    }
  }

  /** Normalizing twice is normalizing once. */
  lemma NormalizeDirectoryIdempotent(dir: string)
    ensures NormalizeDirectory(NormalizeDirectory(dir)) == NormalizeDirectory(dir)
  {
    TrimRightSpec(dir, Slash);
    var t := TrimRight(dir, Slash);
    NormalizeDirectoryIgnoresSlashes(t, "/");
    assert TrimRight(t, Slash) == t;
  }

  /** The `foreach` of `addBaseDirectories`: each mapping in registration
      order, its namespace replaced wherever it occurs by its normalized
      directory. A key is matched literally: `preg_quote` escapes it for the
      pattern. */
  function ApplyMappings(mappings: seq<Entry>, path: string): (r: string)
    ensures (forall i :: 0 <= i < |mappings| ==> |mappings[i].0| > 0 && !Contains(path, mappings[i].0)) ==> r == path
    decreases |mappings|
  {
    if mappings == [] then path
    else
      var (namespace, directory) := mappings[0];
      var dir := NormalizeDirectory(ToPhpString(directory));
      assert |namespace| > 0 && !Contains(path, namespace) ==> ReplaceAll(path, namespace, dir) == path by {
        if |namespace| > 0 && !Contains(path, namespace) {
          ReplaceAllAbsent(path, namespace, dir);
        }
      }
      ApplyMappings(mappings[1..], ReplaceAll(path, namespace, dir))
  }

  /** The last registered mapping is applied last, to the output of all the
      earlier ones. */
  lemma {:induction false} ApplyMappingsSnoc(mappings: seq<Entry>, e: Entry, path: string)
    ensures ApplyMappings(mappings + [e], path)
            == ReplaceAll(ApplyMappings(mappings, path), e.0, NormalizeDirectory(ToPhpString(e.1)))
    decreases |mappings|
  {
    if mappings != [] {
      assert (mappings + [e])[1..] == mappings[1..] + [e];
      var (namespace, directory) := mappings[0];
      ApplyMappingsSnoc(mappings[1..], e, ReplaceAll(path, namespace, NormalizeDirectory(ToPhpString(directory))));
    } else {
      assert ([e])[1..] == [];
    }
  }

  /** One mapping rewrites every occurrence of its namespace, wherever in
      the path it stands, and leaves a path without it alone. */
  lemma OneMappingRewritesEveryOccurrence(namespace: string, directory: string, path: string)
    requires |namespace| > 0
    ensures ApplyMappings([(namespace, Str(directory))], path)
            == Join(Split(path, namespace), NormalizeDirectory(directory))
    ensures !Contains(path, namespace) ==> ApplyMappings([(namespace, Str(directory))], path) == path
  {
    var m: seq<Entry> := [(namespace, Str(directory))];
    assert m[1..] == [];
    ReplaceAllIsJoinOfSplit(path, namespace, NormalizeDirectory(directory));
    if !Contains(path, namespace) {
      ReplaceAllAbsent(path, namespace, NormalizeDirectory(directory));
    }
  }

  /** `addBaseDirectories`: the mapped path under the base directory. */
  function AddBaseDirectories(l: Loader, toDirectory: string): (p: string)
    ensures |p| > |l.baseDirectory| && p[..|l.baseDirectory| + 1] == l.baseDirectory + "/"
    ensures p[|l.baseDirectory| + 1..] == ApplyMappings(l.namespaces, toDirectory)
  {
    var p := l.baseDirectory + "/" + ApplyMappings(l.namespaces, toDirectory);
    assert p[..|l.baseDirectory| + 1] == l.baseDirectory + "/";
    p
  }

  /** The file `load` looks for: below the base directory, ending in
      ".php". */
  function LoadPath(l: Loader, className: string): (p: string)
    ensures |p| >= |l.baseDirectory| + 5
    ensures p[..|l.baseDirectory| + 1] == l.baseDirectory + "/"
    ensures p[|p| - 4..] == ".php"
  {
    var p := AddBaseDirectories(l, ClassToDirectory(className)) + ".php";
    assert p[..|l.baseDirectory| + 1] == AddBaseDirectories(l, ClassToDirectory(className))[..|l.baseDirectory| + 1];
    p
  }

  /** With no namespace registered, the class name is the path below the
      base directory. */
  lemma LoadPathWithoutMappings(baseDirectory: string, className: string)
    ensures LoadPath(NewLoader(baseDirectory), className) == baseDirectory + "/" + ToSlashes(className) + ".php"
  {
  }

  /** The PSR-4 promise for one registered namespace: a class in it loads
      from the namespace's directory, followed by the rest of the class
      name with slashes, as long as that rest does not mention the
      namespace again. */
  lemma LoadPathUnderNamespace(baseDirectory: string, namespace: string, directory: string, rest: string)
    requires |namespace| > 0 && !Contains(ToSlashes(rest), ToSlashes(namespace))
    ensures var l := RegisterNamespaceBaseDirectory(NewLoader(baseDirectory), namespace, directory);
            LoadPath(l, namespace + rest)
            == baseDirectory + "/" + (NormalizeDirectory(directory) + ToSlashes(rest)) + ".php"
  {
    var ns := ToSlashes(namespace);
    var r := ToSlashes(rest);
    var dir := NormalizeDirectory(directory);
    var l := RegisterNamespaceBaseDirectory(NewLoader(baseDirectory), namespace, directory);
    assert l.namespaces == [(ns, Str(directory))];
    ToSlashesConcat(namespace, rest);
    OneMappingReplaces(ns, directory, ns + r);
    ReplaceLeadingPattern(ns, r, dir);
    assert ApplyMappings(l.namespaces, ToSlashes(namespace + rest)) == dir + r;
    LoadPathLayout(l, namespace + rest);
  }

  /** The path `load` looks for, piece by piece. */
  lemma LoadPathLayout(l: Loader, className: string)
    ensures LoadPath(l, className) == l.baseDirectory + "/" + ApplyMappings(l.namespaces, ToSlashes(className)) + ".php"
  {
  }

  /** A path that starts with the pattern and has no other occurrence of
      it gets the replacement in front of the rest. */
  lemma ReplaceLeadingPattern(pat: string, rest: string, rep: string)
    requires |pat| > 0 && !Contains(rest, pat)
    ensures ReplaceAll(pat + rest, pat, rep) == rep + rest
  {
    assert pat <= pat + rest;
    assert (pat + rest)[|pat|..] == rest;
    ReplaceAllAbsent(rest, pat, rep);
  }

  lemma OneMappingReplaces(namespace: string, directory: string, path: string)
    ensures ApplyMappings([(namespace, Str(directory))], path)
            == ReplaceAll(path, namespace, NormalizeDirectory(directory))
  {
    var m: seq<Entry> := [(namespace, Str(directory))];
    assert m[1..] == [];
  }
}

=== FILE: request.dfy ===
/**
 * The `Request` value object: a URL, a method, a content body, query
 * parameters and a bag of headers, each replaced by its own setter.
 * `http_build_query` is PHP's own and is not modelled; the operations that
 * need it take it as the parameter `encode`.
 */
module Requests {

  import opened Php
  import opened Strings
  import opened Bags

  const MethodGet: string := "GET"
  const MethodPut: string := "PUT"
  const MethodPost: string := "POST"
  const MethodDelete: string := "DELETE"

  /** `verb` is the request method (`method` is a Dafny keyword). */
  datatype Request = Request(url: string, headers: Bag, verb: string, contentBody: string, params: Bag)

  /** The fields of a request, to say which one a setter may touch. */
  datatype Field = UrlField | HeadersField | MethodField | BodyField | ParamsField

  /** `a` and `b` agree on every field except possibly `f`. */
  ghost predicate SameExcept(a: Request, b: Request, f: Field) {
    && (f == UrlField || a.url == b.url)
    && (f == HeadersField || a.headers == b.headers)
    && (f == MethodField || a.verb == b.verb)
    && (f == BodyField || a.contentBody == b.contentBody)
    && (f == ParamsField || a.params == b.params)
  }

  /** `new Request($url)`: a GET with no body, no headers and no query. */
  function NewRequest(url: string): (r: Request)
    ensures GetUrl(r) == url
    ensures GetMethod(r) == MethodGet
    ensures GetContentBody(r) == ""
    ensures Count(GetHeaders(r)) == 0
    ensures GetQueryParams(r) == Empty
  {
    Request(url, Empty, MethodGet, "", Empty)
  }

  function GetUrl(r: Request): string { r.url }
  function GetContentBody(r: Request): string { r.contentBody }
  function GetMethod(r: Request): string { r.verb }
  function GetHeaders(r: Request): Bag { r.headers }
  function GetQueryParams(r: Request): Bag { r.params }

  /** `getHeader($h)`: the bag's `get` with a null default. */
  function GetHeader(r: Request, header: string): (v: Value)
    ensures Has(r.headers, header) ==> Lookup(r.headers, header) == Some(v)
    ensures !Has(r.headers, header) ==> v == Null
  {
    Get(r.headers, header, Null)
  }

  function SetUrl(req: Request, url: string): (r: Request)
    ensures GetUrl(r) == url && SameExcept(r, req, UrlField)
  {
    req.(url := url)
  }

  function SetContentBody(req: Request, content: string): (r: Request)
    ensures GetContentBody(r) == content && SameExcept(r, req, BodyField)
  {
    req.(contentBody := content)
  }

  function SetMethod(req: Request, verb: string): (r: Request)
    ensures GetMethod(r) == verb && SameExcept(r, req, MethodField)
  {
    req.(verb := verb)
  }

  /** `setHeaders`: the bag is refilled, so earlier headers are dropped. */
  function SetHeaders(req: Request, headers: Bag): (r: Request)
    ensures All(GetHeaders(r)) == headers
    ensures forall h :: Lookup(GetHeaders(r), h) == Lookup(headers, h)
    ensures SameExcept(r, req, HeadersField)
  {
    req.(headers := Fill(req.headers, headers))
  }

  /** `setHeader`: one header is set to a string, overwritten where it stands
      or appended when new; every other header is kept in its place. */
  function SetHeader(req: Request, header: string, value: string): (r: Request)
    ensures GetHeader(r, header) == Str(value)
    ensures forall h :: h != header ==> Lookup(GetHeaders(r), h) == Lookup(GetHeaders(req), h)
    ensures Keys(GetHeaders(r)) == Keys(GetHeaders(req)) + {header}
    ensures |r.headers| == if header in Keys(req.headers) then |req.headers| else |req.headers| + 1
    ensures forall i :: 0 <= i < |req.headers| && req.headers[i].0 != header ==> r.headers[i] == req.headers[i]
    ensures forall i :: 0 <= i < |req.headers| && req.headers[i].0 == header ==> r.headers[i] == (header, Str(value))
    ensures header !in Keys(req.headers) ==> r.headers[|req.headers|] == (header, Str(value))
    ensures SameExcept(r, req, HeadersField)
  {
    LookupSetOthers(req.headers, header, Str(value));
    req.(headers := Set(req.headers, header, Str(value)))
  }

  function SetQueryParams(req: Request, params: Bag): (r: Request)
    ensures GetQueryParams(r) == params && SameExcept(r, req, ParamsField)
  {
    req.(params := params)
  }

  /** `getUrlWithQuery`: the URL, followed by "?" and the encoded query
      when that encoding is truthy; a URL that already holds a query gets
      a second "?". */
  function GetUrlWithQuery(req: Request, encode: Bag -> string): (u: string)
    ensures var query := encode(req.params);
      if IsTruthyString(query) then
        && |u| == |req.url| + 1 + |query|
        && u[..|req.url|] == req.url && u[|req.url|] == '?' && u[|req.url| + 1..] == query
      else
        u == req.url
  {
    var query := encode(req.params);
    if IsTruthyString(query) then req.url + "?" + query else req.url
  }

  /** The first "?" of the URL sent: the one added before the query when
      the URL holds none, and the URL's own otherwise, so the query then
      reads as part of the URL's last parameter. */
  lemma UrlWithQuerySplitsBack(req: Request, encode: Bag -> string)
    ensures var u := GetUrlWithQuery(req, encode);
            IsTruthyString(encode(req.params)) && '?' !in req.url ==> IndexOf(u, '?') == Some(|req.url|)
    ensures '?' in req.url ==> IndexOf(GetUrlWithQuery(req, encode), '?') == IndexOf(req.url, '?')
  {
    var u := GetUrlWithQuery(req, encode);
    var i := IndexOf(req.url, '?');
    if IsTruthyString(encode(req.params)) && i.Some? {
      assert u[..i.value] == req.url[..i.value];
    }
  }

  /** Without query parameters, and with an encoder that maps no parameters
      to the empty string, the URL is sent as it was given. */
  lemma NoParamsNoQuery(req: Request, encode: Bag -> string)
    requires GetQueryParams(req) == Empty && encode(Empty) == ""
    ensures GetUrlWithQuery(req, encode) == GetUrl(req)
  {
  }

  /** `setHeaders` then `setHeader`: the named header reads the last value,
      the others read what the array gave. */
  lemma SetHeaderAfterSetHeaders(req: Request, headers: Bag, header: string, value: string, h: string)
    ensures var r := SetHeader(SetHeaders(req, headers), header, value);
            Lookup(GetHeaders(r), h) == if h == header then Some(Str(value)) else Lookup(headers, h)
  {
  }

  /** Setting the same header twice is setting it once to the second value. */
  lemma SetHeaderTwice(req: Request, header: string, v1: string, v2: string)
    ensures SetHeader(SetHeader(req, header, v1), header, v2) == SetHeader(req, header, v2)
  {
    SetTwice(req.headers, header, Str(v1), Str(v2));
  }
}

=== FILE: request_factory.dfy ===
/**
 * `RequestFactory`: shorthands that build a GET, POST, PUT or DELETE
 * request. `post` and `put` exist twice here: as written, where `post`
 * calls a method `Request` does not have, and corrected, where it calls
 * `setContentBody`. `get` likewise exists as written, where the query
 * string it builds is thrown away, and corrected.
 */
module RequestFactory {

  import opened Php
  import opened Strings
  import opened Bags
  import opened Requests

  /** The `$body` argument of `post` and `put`: a string sent as it is, or
      an array of form fields. */
  datatype Body = Raw(content: string) | Form(fields: Bag)

  const ContentTypeHeader: string := "Content-Type"
  const FormContentType: string := "application/x-www-form-urlencoded"

  /** `get` as written: the query string is computed and then dropped, so
      the request is a plain GET on `uri` whatever `params` holds. */
  function Get(uri: string, params: Bag): (r: Request)
    ensures GetUrl(r) == uri && GetMethod(r) == MethodGet
    ensures GetQueryParams(r) == Empty && GetContentBody(r) == ""
    ensures Count(GetHeaders(r)) == 0
  {
    NewRequest(uri)
  }

  /** The URL `get` sends carries no query, however many parameters the
      caller passed. */
  lemma GetDropsParams(uri: string, params: Bag, encode: Bag -> string)
    requires encode(Empty) == ""
    ensures GetUrlWithQuery(Get(uri, params), encode) == uri
    ensures GetUrlWithQuery(Get(uri, params), encode) != uri + "?" + encode(params)
  {
    NoParamsNoQuery(Get(uri, params), encode);
  }

  /** `get` as evidently intended: the query string it builds, "?" and the
      encoded parameters when there are any, is part of the URL. */
  function GetWithQuery(uri: string, params: Bag, encode: Bag -> string): (r: Request)
    ensures GetMethod(r) == MethodGet && GetQueryParams(r) == Empty
    ensures GetContentBody(r) == "" && Count(GetHeaders(r)) == 0
  {
    var queryString := if params != [] then "?" + encode(params) else "";
    NewRequest(uri + queryString)
  }

  /** The corrected `get` sends the parameters: the URL is `uri`, then "?"
      and the encoded parameters when there are any; and when `uri` holds
      no "?" the first "?" of the URL separates the two again. */
  lemma GetWithQuerySendsParams(uri: string, params: Bag, encode: Bag -> string)
    requires encode(Empty) == ""
    ensures params == [] ==> GetUrlWithQuery(GetWithQuery(uri, params, encode), encode) == uri
    ensures params != [] ==> GetUrlWithQuery(GetWithQuery(uri, params, encode), encode) == uri + "?" + encode(params)
    ensures params != [] && '?' !in uri ==>
            var u := GetUrlWithQuery(GetWithQuery(uri, params, encode), encode);
            IndexOf(u, '?') == Some(|uri|) && u[|uri| + 1..] == encode(params)
  {
    var r := GetWithQuery(uri, params, encode);
    NoParamsNoQuery(r, encode);
    if params != [] && '?' !in uri {
      var u := uri + "?" + encode(params);
      assert u[|uri|] == '?' && u[..|uri|] == uri;
    }
  }

  /** The request `post` prepares before it sets the body: a POST on `uri`,
      with the form content type when the body is an array. */
  function PostPrelude(uri: string, body: Body): (r: Request)
    ensures GetUrl(r) == uri && GetMethod(r) == MethodPost
    ensures body.Raw? ==> Count(GetHeaders(r)) == 0
    ensures body.Form? ==> (GetHeader(r, ContentTypeHeader) == Str(FormContentType)
                            && Keys(GetHeaders(r)) == {ContentTypeHeader})
  {
    var request := SetMethod(NewRequest(uri), MethodPost);
    match body
    case Raw(_) => request
    case Form(_) => SetHeader(request, ContentTypeHeader, FormContentType)
  }

  /** `post` as written: after the prelude it calls `$request->setContent`,
      which `Request` does not define, so every call ends in PHP's fatal
      "call to undefined method" error. */
  function PostAsWritten(uri: string, body: Body, encode: Bag -> string): (r: Result<Request>)
    ensures r.Failure? && r.error.UndefinedMethod?
  {
    var _ := PostPrelude(uri, body);
    Failure(UndefinedMethod("Request::setContent"))
  }

  /** `put` as written: it calls `post`, so it fails the same way. */
  function PutAsWritten(uri: string, body: Body, encode: Bag -> string): (r: Result<Request>)
    ensures r == Failure(PostAsWritten(uri, body, encode).error)
  {
    match PostAsWritten(uri, body, encode)
    case Failure(e) => Failure(e)
    case Success(request) => Success(SetMethod(request, MethodPut))
  }

  /** No call of `post` or `put` as written returns a request. */
  lemma PostAsWrittenNeverReturns(uri: string, body: Body, encode: Bag -> string)
    ensures PostAsWritten(uri, body, encode) == Failure(UndefinedMethod("Request::setContent"))
    ensures PutAsWritten(uri, body, encode) == Failure(UndefinedMethod("Request::setContent"))
  {
  }

  /** `post` as evidently intended: the body goes in through
      `setContentBody`, form fields encoded with `encode`. */
  function Post(uri: string, body: Body, encode: Bag -> string): (r: Request)
    ensures GetUrl(r) == uri && GetMethod(r) == MethodPost && GetQueryParams(r) == Empty
    ensures body.Raw? ==> GetContentBody(r) == body.content && Count(GetHeaders(r)) == 0
    ensures body.Form? ==> (GetContentBody(r) == encode(body.fields)
                            && GetHeader(r, ContentTypeHeader) == Str(FormContentType)
                            && Keys(GetHeaders(r)) == {ContentTypeHeader})
  {
    var request := PostPrelude(uri, body);
    match body
    case Raw(content) => SetContentBody(request, content)
    case Form(fields) => SetContentBody(request, encode(fields))
  }

  /** `put`: the request `post` builds, with the method changed to PUT and
      nothing else changed. */
  function Put(uri: string, body: Body, encode: Bag -> string): (r: Request)
    ensures GetMethod(r) == MethodPut
    ensures Requests.SameExcept(r, Post(uri, body, encode), MethodField)
  {
    SetMethod(Post(uri, body, encode), MethodPut)
  }

  /** `delete`: a bodiless, headerless DELETE on `uri`. */
  function Delete(uri: string): (r: Request)
    ensures GetUrl(r) == uri && GetMethod(r) == MethodDelete
    ensures GetContentBody(r) == "" && Count(GetHeaders(r)) == 0 && GetQueryParams(r) == Empty
  {
    SetMethod(NewRequest(uri), MethodDelete)
  }

  /** `delete` and `get` build the same request but for its method; `put`
      and the corrected `post` build the same request but for its method. */
  lemma FactoryMethodsDifferOnlyInMethod(uri: string, params: Bag, body: Body, encode: Bag -> string)
    ensures Requests.SameExcept(Delete(uri), Get(uri, params), MethodField)
    ensures Put(uri, body, encode).(verb := MethodPost) == Post(uri, body, encode)
  {
  }
}

=== FILE: response.dfy ===
/**
 * The `Response` value object: what a request produced, with setters that
 * each replace one field. The content body is a type parameter because it
 * is either the raw body string or the decoded JSON value.
 */
module Responses {

  import opened Bags

  /** An HTTP protocol version as its two digits: 1.1 is `Version(1, 1)`. */
  datatype Version = Version(major: nat, minor: nat)

  datatype Response<B> = Response(
    uri: string,
    contentBody: B,
    statusCode: int,
    protocolVersion: Version,
    charset: string,
    contentType: string,
    headers: Bag)

  /** The content type for which the body is JSON. */
  const JsonContentType: string := "application/json"

  /** The fields of a response, to say which one a setter may touch. */
  datatype Field = UriField | BodyField | StatusField | ProtocolField | CharsetField | ContentTypeField | HeadersField

  /** `a` and `b` agree on every field except possibly `f`. */
  ghost predicate SameExcept<B>(a: Response<B>, b: Response<B>, f: Field) {
    && (f == UriField || a.uri == b.uri)
    && (f == BodyField || a.contentBody == b.contentBody)
    && (f == StatusField || a.statusCode == b.statusCode)
    && (f == ProtocolField || a.protocolVersion == b.protocolVersion)
    && (f == CharsetField || a.charset == b.charset)
    && (f == ContentTypeField || a.contentType == b.contentType)
    && (f == HeadersField || a.headers == b.headers)
  }

  /** The constructor: every argument is stored as given, the header array
      wrapped in a new bag. */
  function NewResponse<B>(uri: string, contentBody: B, statusCode: int, protocolVersion: Version,
                          charset: string, contentType: string, headers: Bag): (r: Response<B>)
    ensures GetContentBody(r) == contentBody
    ensures GetStatusCode(r) == statusCode
    ensures GetCharset(r) == charset
    ensures GetContentType(r) == contentType
    ensures All(GetHeaders(r)) == headers
    ensures r.uri == uri && r.protocolVersion == protocolVersion
  {
    Response(uri, contentBody, statusCode, protocolVersion, charset, contentType, headers)
  }

  function GetContentBody<B>(r: Response<B>): B { r.contentBody }
  function GetContentType<B>(r: Response<B>): string { r.contentType }
  function GetHeaders<B>(r: Response<B>): Bag { r.headers }
  function GetStatusCode<B>(r: Response<B>): int { r.statusCode }
  function GetCharset<B>(r: Response<B>): string { r.charset }

  function SetUri<B>(resp: Response<B>, uri: string): (r: Response<B>)
    ensures r.uri == uri && SameExcept(r, resp, UriField)
  {
    resp.(uri := uri)
  }

  function SetContentBody<B>(resp: Response<B>, body: B): (r: Response<B>)
    ensures GetContentBody(r) == body && SameExcept(r, resp, BodyField)
  {
    resp.(contentBody := body)
  }

  function SetStatusCode<B>(resp: Response<B>, code: int): (r: Response<B>)
    ensures GetStatusCode(r) == code && SameExcept(r, resp, StatusField)
  {
    resp.(statusCode := code)
  }

  function SetProtocolVersion<B>(resp: Response<B>, version: Version): (r: Response<B>)
    ensures r.protocolVersion == version && SameExcept(r, resp, ProtocolField)
  {
    resp.(protocolVersion := version)
  }

  function SetCharset<B>(resp: Response<B>, charset: string): (r: Response<B>)
    ensures GetCharset(r) == charset && SameExcept(r, resp, CharsetField)
  {
    resp.(charset := charset)
  }

  function SetContentType<B>(resp: Response<B>, contentType: string): (r: Response<B>)
    ensures GetContentType(r) == contentType && SameExcept(r, resp, ContentTypeField)
  {
    resp.(contentType := contentType)
  }

  /** Replaces the headers by a new bag holding `headers`. */
  function SetHeaders<B>(resp: Response<B>, headers: Bag): (r: Response<B>)
    ensures All(GetHeaders(r)) == headers && SameExcept(r, resp, HeadersField)
  {
    resp.(headers := headers)
  }

  /** Whether the body is JSON: the content type is exactly
      "application/json", with no parameters and no other spelling. */
  function IsJson<B>(r: Response<B>): (b: bool)
    ensures b <==> GetContentType(r) == JsonContentType
  {
    r.contentType == "application/json"
  }

  /** Only the content type decides `isJson`: every other setter keeps it,
      and setting the content type decides it outright. */
  lemma IsJsonFollowsContentType<B>(resp: Response<B>, r: Response<B>, f: Field)
    requires SameExcept(r, resp, f)
    ensures f != ContentTypeField ==> (IsJson(r) <==> IsJson(resp))
    ensures IsJson(r) <==> r.contentType == JsonContentType
  {
  }
}

=== FILE: strings.dfy ===
/**
 * The PHP string functions the library calls, on `seq<char>`:
 * `explode`, `implode`, a literal replace-all (what `str_replace` and a
 * `preg_replace` of a `preg_quote`d pattern both do), `trim`/`rtrim`,
 * `strpos` for one character, and `preg_quote`.
 */
module Strings {

  import opened Php

  /** True when `pat` occurs somewhere in `s`. */
  predicate Contains(s: string, pat: string)
    decreases |s|
  {
    pat <= s || (|s| > 0 && Contains(s[1..], pat))
  }

  /** PHP's `explode(d, s)` for a non-empty delimiter: the pieces between the
      leftmost non-overlapping occurrences of `d`. */
  function Split(s: string, d: string): (parts: seq<string>)
    requires |d| > 0
    ensures |parts| >= 1
    decreases |s|
  {
    if d <= s then [""] + Split(s[|d|..], d)
    else if s == [] then [""]
    else
      var rest := Split(s[1..], d);
      [[s[0]] + rest[0]] + rest[1..]
  }

  /** PHP's `implode(sep, parts)`. */
  function Join(parts: seq<string>, sep: string): string
    requires |parts| >= 1
    decreases |parts|
  {
    if |parts| == 1 then parts[0] else parts[0] + sep + Join(parts[1..], sep)
  }

  /** Replaces every leftmost non-overlapping occurrence of `pat` in `s` by
      `rep`, scanning left to right, as `preg_replace` does with a literal
      pattern. An empty pattern matches at every position, before each
      character and at the end. */
  function ReplaceAll(s: string, pat: string, rep: string): string
    decreases |s|, |pat| == 0
  {
    if |pat| == 0 then
      (if s == [] then rep else rep + [s[0]] + ReplaceAll(s[1..], pat, rep))
    else if pat <= s then rep + ReplaceAll(s[|pat|..], pat, rep)
    else if s == [] then []
    else [s[0]] + ReplaceAll(s[1..], pat, rep)
  }

  /** PHP's `str_replace(from, to, s)` for single characters. */
  function ReplaceChar(s: string, from: char, to: char): (r: string)
    ensures |r| == |s|
    ensures forall i :: 0 <= i < |s| && s[i] != from ==> r[i] == s[i]
    ensures forall i :: 0 <= i < |s| && s[i] == from ==> r[i] == to
  {
    if s == [] then []
    else [if s[0] == from then to else s[0]] + ReplaceChar(s[1..], from, to)
  }

  /** Every character of `t` is in `cs`. */
  predicate AllIn(t: string, cs: set<char>) {
    forall i :: 0 <= i < |t| ==> t[i] in cs
  }

  /** Removes the longest suffix made of characters in `cs` (PHP `rtrim`). */
  function TrimRight(s: string, cs: set<char>): string
    decreases |s|
  {
    if s == [] || s[|s| - 1] !in cs then s else TrimRight(s[..|s| - 1], cs)
  }

  /** Removes the longest prefix made of characters in `cs` (PHP `ltrim`). */
  function TrimLeft(s: string, cs: set<char>): string
    decreases |s|
  {
    if s == [] || s[0] !in cs then s else TrimLeft(s[1..], cs)
  }

  /** `rtrim` keeps a prefix that does not end in `cs`, and what it cut off
      is made of characters in `cs`. */
  lemma {:induction false} TrimRightSpec(s: string, cs: set<char>)
    ensures var r := TrimRight(s, cs);
      && r <= s
      && (|r| == 0 || r[|r| - 1] !in cs)
      && AllIn(s[|r|..], cs)
    decreases |s|
  {
    if s != [] && s[|s| - 1] in cs {
      var t := s[..|s| - 1];
      TrimRightSpec(t, cs);
      var r := TrimRight(t, cs);
      assert s[|r|..] == t[|r|..] + [s[|s| - 1]];
    }
  }

  /** `ltrim` keeps a suffix that does not start with `cs`, and what it cut
      off is made of characters in `cs`. */
  lemma {:induction false} TrimLeftSpec(s: string, cs: set<char>)
    ensures var r := TrimLeft(s, cs);
      && |r| <= |s| && r == s[|s| - |r|..]
      && (|r| == 0 || r[0] !in cs)
      && AllIn(s[..|s| - |r|], cs)
    decreases |s|
  {
    if s != [] && s[0] in cs {
      var t := s[1..];
      TrimLeftSpec(t, cs);
      var r := TrimLeft(t, cs);
      assert s[..|s| - |r|] == [s[0]] + t[..|t| - |r|];
    }
  }

  /** The characters PHP's `trim` strips by default: space, tab, newline,
      carriage return, NUL and vertical tab. */
  const Whitespace: set<char> := {' ', '\t', '\n', '\r', 0 as char, 11 as char}

  /** PHP's `trim(s)`. */
  function Trim(s: string): string {
    TrimRight(TrimLeft(s, Whitespace), Whitespace)
  }

  /** A string that `Trim` leaves alone: it neither starts nor ends with
      whitespace. */
  predicate IsTrimmed(s: string) {
    |s| == 0 || (s[0] !in Whitespace && s[|s| - 1] !in Whitespace)
  }

  /** PHP's `strpos(s, c)`: the index of the first `c`, if any. */
  function IndexOf(s: string, c: char): (r: Option<nat>)
    ensures r.None? <==> c !in s
    ensures r.Some? ==> r.value < |s| && s[r.value] == c && c !in s[..r.value]
    decreases |s|
  {
    if s == [] then None
    else if s[0] == c then Some(0)
    else match IndexOf(s[1..], c)
      case None => None
      case Some(i) => Some(i + 1)
  }

  /** The characters `preg_quote` escapes, besides the delimiter. */
  const RegexSpecial: set<char> :=
    {'.', '\\', '+', '*', '?', '[', '^', ']', '$', '(', ')', '{', '}', '=', '!',
     '<', '>', '|', ':', '-', '#'}

  /** PHP's `preg_quote(s, delim)`: a backslash before every regular
      expression special character and before the delimiter; NUL becomes
      the four characters `\000`. */
  function PregQuote(s: string, delim: char): (r: string)
    ensures |r| >= |s|
    decreases |s|
  {
    if s == [] then []
    else if s[0] == 0 as char then "\\000" + PregQuote(s[1..], delim)
    else if s[0] in RegexSpecial || s[0] == delim then ['\\', s[0]] + PregQuote(s[1..], delim)
    else [s[0]] + PregQuote(s[1..], delim)
  }

  /** Letters are never escaped. */
  lemma LetterNotSpecial(c: char)
    requires 'A' <= c <= 'Z' || 'a' <= c <= 'z'
    ensures c !in RegexSpecial && c != 0 as char
  {
  }

  /** A leading delimiter is escaped. */
  lemma PregQuoteEscapesDelimiter(s: string, delim: char)
    requires s != [] && s[0] == delim && delim != 0 as char
    ensures |PregQuote(s, delim)| >= 2 && PregQuote(s, delim)[..2] == ['\\', delim]
  {
  }

  /** `preg_quote` works character by character. */
  lemma {:induction false} PregQuoteConcat(a: string, b: string, delim: char)
    ensures PregQuote(a + b, delim) == PregQuote(a, delim) + PregQuote(b, delim)
    decreases |a|
  {
    if a != [] {
      assert (a + b)[1..] == a[1..] + b;
      PregQuoteConcat(a[1..], b, delim);
    } else {
      assert a + b == b;
    }
  }

  /** Letters and other plain characters pass through `preg_quote`. */
  lemma {:induction false} PregQuoteUnquoted(s: string, delim: char)
    requires forall i :: 0 <= i < |s| ==> s[i] !in RegexSpecial && s[i] != delim && s[i] != 0 as char
    ensures PregQuote(s, delim) == s
    decreases |s|
  {
    if s != [] {
      PregQuoteUnquoted(s[1..], delim);
    }
  }

  // ---------------------------------------------------------------------
  // explode / implode
  // ---------------------------------------------------------------------

  lemma {:induction false} JoinCons(c: char, parts: seq<string>, sep: string)
    requires |parts| >= 1
    ensures Join([[c] + parts[0]] + parts[1..], sep) == [c] + Join(parts, sep)
  {
    var ps := [[c] + parts[0]] + parts[1..];
    if |parts| > 1 {
      assert ps[1..] == parts[1..];
    }
  }

  /** Splitting at a leading delimiter: an empty first piece. */
  lemma SplitAtDelimiter(s: string, d: string)
    requires |d| > 0 && d <= s
    ensures Split(s, d) == [""] + Split(s[|d|..], d)
  {
  }

  /** Splitting at a character that starts no delimiter: the character
      joins the first piece. */
  lemma SplitAtChar(s: string, d: string)
    requires |d| > 0 && !(d <= s) && s != []
    ensures var rest := Split(s[1..], d);
            Split(s, d) == [[s[0]] + rest[0]] + rest[1..]
  {
  }

  lemma JoinEmptyHead(rest: seq<string>, sep: string)
    requires |rest| >= 1
    ensures Join([""] + rest, sep) == sep + Join(rest, sep)
  {
    assert ([""] + rest)[1..] == rest;
  }

  /** `implode(d, explode(d, s)) == s`: splitting loses nothing. */
  lemma {:induction false} JoinSplit(s: string, d: string)
    requires |d| > 0
    ensures Join(Split(s, d), d) == s
    decreases |s|
  {
    if d <= s {
      var tail := s[|d|..];
      JoinSplit(tail, d);
      SplitAtDelimiter(s, d);
      JoinEmptyHead(Split(tail, d), d);
      assert s == d + tail;
    } else if s != [] {
      JoinSplit(s[1..], d);
      SplitAtChar(s, d);
      JoinCons(s[0], Split(s[1..], d), d);
      assert s == [s[0]] + s[1..];
    }
  }

  lemma {:induction false} SplitFirstIsPrefix(s: string, d: string)
    requires |d| > 0
    ensures Split(s, d)[0] <= s
    decreases |s|
  {
    if !(d <= s) && s != [] {
      SplitFirstIsPrefix(s[1..], d);
    }
  }

  /** A string without the delimiter character explodes to itself. */
  lemma {:induction false} SplitCharAbsent(s: string, c: char)
    requires c !in s
    ensures Split(s, [c]) == [s]
    decreases |s|
  {
    if s != [] {
      SplitCharAbsent(s[1..], c);
      assert [s[0]] + s[1..] == s;
    }
  }

  /** Exploding at a character cuts at its first occurrence first. */
  lemma {:induction false} SplitCharAt(a: string, c: char, b: string)
    requires c !in a
    ensures Split(a + [c] + b, [c]) == [a] + Split(b, [c])
    decreases |a|
  {
    var s := a + [c] + b;
    if a == [] {
      assert s == [c] + b;
      assert s[1..] == b;
    } else {
      assert s[1..] == a[1..] + [c] + b;
      SplitCharAt(a[1..], c, b);
      assert s[0] == a[0] && a[0] != c;
      assert [a[0]] + a[1..] == a;
    }
  }

  /** A string holding the delimiter character explodes into at least two
      pieces. */
  lemma SplitCharPresent(s: string, c: char)
    ensures c in s <==> |Split(s, [c])| >= 2
  {
    if c in s {
      var i := IndexOf(s, c).value;
      assert s == s[..i] + [c] + s[i + 1..];
      SplitCharAt(s[..i], c, s[i + 1..]);
    } else {
      SplitCharAbsent(s, c);
    }
  }

  /** The text before the first `c`, or the whole string when it holds
      no `c`. */
  function UpTo(s: string, c: char): (r: string)
    ensures r <= s && c !in r
    ensures |r| == |s| || s[|r|] == c
  {
    match IndexOf(s, c)
    case None => s
    case Some(i) => s[..i]
  }

  /** The text after the first `c`; empty when there is none. */
  function AfterFirst(s: string, c: char): (r: string)
    ensures c in s ==> s == UpTo(s, c) + [c] + r
    ensures c !in s ==> r == []
  {
    match IndexOf(s, c)
    case None => []
    case Some(i) => s[i + 1..]
  }

  /** The first two pieces of `explode` at a character: the text before
      the first occurrence, and the text between the first and the second. */
  lemma SplitCharFirstPieces(s: string, c: char)
    ensures Split(s, [c])[0] == UpTo(s, c)
    ensures c in s ==> |Split(s, [c])| >= 2 && Split(s, [c])[1] == UpTo(AfterFirst(s, c), c)
  {
    if c in s {
      var a, b := UpTo(s, c), AfterFirst(s, c);
      SplitCharAt(a, c, b);
      if c in b {
        SplitCharAt(UpTo(b, c), c, AfterFirst(b, c));
      } else {
        SplitCharAbsent(b, c);
      }
    } else {
      SplitCharAbsent(s, c);
    }
  }

  // ---------------------------------------------------------------------
  // Literal replacement
  // ---------------------------------------------------------------------

  /** Replacing a non-empty pattern is cutting at every occurrence and
      gluing the pieces back with the replacement. */
  lemma {:induction false} ReplaceAllIsJoinOfSplit(s: string, pat: string, rep: string)
    requires |pat| > 0
    ensures ReplaceAll(s, pat, rep) == Join(Split(s, pat), rep)
    decreases |s|
  {
    if pat <= s {
      var tail := s[|pat|..];
      ReplaceAllIsJoinOfSplit(tail, pat, rep);
      SplitAtDelimiter(s, pat);
      JoinEmptyHead(Split(tail, pat), rep);
    } else if s != [] {
      ReplaceAllIsJoinOfSplit(s[1..], pat, rep);
      SplitAtChar(s, pat);
      JoinCons(s[0], Split(s[1..], pat), rep);
    }
  }

  /** A string without the pattern is left as it is. */
  lemma {:induction false} ReplaceAllAbsent(s: string, pat: string, rep: string)
    requires |pat| > 0 && !Contains(s, pat)
    ensures ReplaceAll(s, pat, rep) == s
    decreases |s|
  {
    if s != [] {
      ReplaceAllAbsent(s[1..], pat, rep);
    }
  }

  /** `str_replace` of one character is the literal replace-all of the
      one-character pattern. */
  lemma {:induction false} ReplaceCharIsReplaceAll(s: string, from: char, to: char)
    ensures ReplaceChar(s, from, to) == ReplaceAll(s, [from], [to])
    decreases |s|
  {
    if s != [] {
      ReplaceCharIsReplaceAll(s[1..], from, to);
      assert [from] <= s <==> s[0] == from;
      assert s[|[from]|..] == s[1..];
    }
  }

  // ---------------------------------------------------------------------
  // trim
  // ---------------------------------------------------------------------

  /** `trim` leaves a result that neither starts nor ends with whitespace. */
  lemma TrimIsTrimmed(s: string)
    ensures IsTrimmed(Trim(s))
  {
    var l := TrimLeft(s, Whitespace);
    TrimLeftSpec(s, Whitespace);
    var r := TrimRight(l, Whitespace);
    TrimRightSpec(l, Whitespace);
    if |r| > 0 {
      assert r[0] == l[0];
    }
  }

  lemma {:induction false} TrimLeftOfTrimmedTail(ws: string, v: string)
    requires AllIn(ws, Whitespace)
    requires |v| == 0 || v[0] !in Whitespace
    ensures TrimLeft(ws + v, Whitespace) == v
    decreases |ws|
  {
    if ws != [] {
      assert (ws + v)[1..] == ws[1..] + v;
      TrimLeftOfTrimmedTail(ws[1..], v);
    } else {
      assert ws + v == v;
    }
  }

  lemma {:induction false} TrimRightOfTrimmed(v: string)
    requires |v| == 0 || v[|v| - 1] !in Whitespace
    ensures TrimRight(v, Whitespace) == v
  {
  }

  lemma {:induction false} TrimLeftKeepsOut(s: string, cs: set<char>, c: char)
    requires c !in s
    ensures c !in TrimLeft(s, cs)
    decreases |s|
  {
    if s != [] && s[0] in cs {
      TrimLeftKeepsOut(s[1..], cs, c);
    }
  }

  lemma {:induction false} TrimRightKeepsOut(s: string, cs: set<char>, c: char)
    requires c !in s
    ensures c !in TrimRight(s, cs)
    decreases |s|
  {
    if s != [] && s[|s| - 1] in cs {
      assert forall i :: 0 <= i < |s| - 1 ==> s[..|s| - 1][i] == s[i];
      TrimRightKeepsOut(s[..|s| - 1], cs, c);
    }
  }

  /** `trim` only removes characters: a character absent from the input is
      absent from the result. */
  lemma TrimKeepsOut(s: string, c: char)
    requires c !in s
    ensures c !in Trim(s)
  {
    TrimLeftKeepsOut(s, Whitespace, c);
    TrimRightKeepsOut(TrimLeft(s, Whitespace), Whitespace, c);
  }

  /** Trimming whitespace put in front of a trimmed string gives it back. */
  lemma TrimLeadingWhitespace(ws: string, v: string)
    requires AllIn(ws, Whitespace)
    requires IsTrimmed(v)
    ensures Trim(ws + v) == v
  {
    TrimLeftOfTrimmedTail(ws, v);
    TrimRightOfTrimmed(v);
  }
}
